=== FILE: README.md ===
# parseSfc in Dafny

A model of `parseSfc` from `sfc-parser.mjs`. This is the dependency-free
scanner that splits a Vue-style Single File Component into its top-level
blocks. Each block has a tag name, its raw content, and an optional
attribute map. Comments between blocks are skipped. Same-named tags nested
inside a block are tracked by a depth counter, so they are kept as content
and do not end the block.

The model follows the code character by character, quirks included.

- `SfcParser` (`parser.dfy`) holds the data model and the scanner.
  - The cursor is a `State` datatype. Its fields are `partial`, `tag`,
    `attrs`, `attr`, `content`, `depth` and the output `out`.
  - The JavaScript `tag` variable is modelled as `Tag = NoTag | Comment | Name(n)`.
    Here `NoTag` stands for the falsy `''` and `Comment` for the `COMMENT` symbol.
  - There is one step function per branch of the loop body. They are
    combined by `Step`, folded over the input by `Run`, and `Finish` is
    the end-of-file check. `Parse` is the whole function.
  - `ParseSfc` is the loop itself, proved to compute `Parse`.
  - Thrown errors become a `ParseError` value. `UnexpectedChar` carries
    the character and which of the three messages at lines 49, 82 and 148
    applies. The other errors carry only what varies in their message: the
    quote for `UnterminatedQuotedValue`, and nothing for `MissingValue`,
    `EscapedQuote` and `UnexpectedEOF`.
- `Chars` holds the character classes: JavaScript's `\s`, `[a-z0-9-]/i` and
  `[a-z0-9-!]/i`. It also has `Slice` for `slice(k)` and `FirstWord` for
  `split(/\s/, 2)[0]`.
- `SfcSyntax` describes well-formed documents.
  - A document is a sequence of whitespace, comments and elements.
  - An element has attributes that are bare, quoted or unquoted, and a
    body of text and `<...>` tokens.
  - `Render` writes exactly one space before each attribute and nothing
    between the last attribute and `>`. So the round trip does not cover
    opening tags with runs of whitespace, newlines between attributes, or
    whitespace before `>` (`<style  scoped>`, `<n k >`), although the
    scanner accepts them.
  - `Render` writes a document out.
  - `Blocks` is the reference meaning of a document: the blocks it should
    parse to.
- `SfcRuns` and `SfcRoundTrip` prove what the scanner does on each piece
  of such a document. This ends in `ParseRender`:
  `Parse(Render(doc)) == Ok(Blocks(doc))` for every well-formed `doc`.
- `SfcInvariants` gives the invariant of every reachable state and what it
  implies about returned blocks.
- `SfcSpans` proves that, for any input that parses, each block's content
  is the verbatim text between a `>` and the block's `</tag>`.
- `SfcErrors` covers the failure paths. It shows fail-fast and the precise
  error for the malformed shapes listed under "## Model".
- `SfcQuirks` states behaviours the code has as written that a reader of
  HTML would not expect.
- `SfcExamples` gives the single-block shapes of the attribute, nesting
  and foreign-token cases in `tests.mjs`, each proved for every name, value
  and text that fits the shape.

Where the code departs from what its header comment and HTML conventions
suggest, the model follows the code:

- An unquoted attribute value is not cut at whitespace. Every character up
  to `>` is appended to it (lines 107-120).
- Opening a block does not reset `content`; only emitting a block does
  (lines 157-163). The two readings agree, because `content` is empty
  whenever no block is open (`SfcInvariants.Valid`).
- Opening a tag adds one to `depth`; it does not set it to 1. The end-of-file
  check looks at `tag`, `partial` and `attr` but not at `depth`. So `<>`
  raises the depth without opening anything (`SfcQuirks.EmptyTagName`), and
  the next block then needs one closer too many
  (`SfcQuirks.BareEmptyTagSkewsDepth`; `SfcQuirks.EmptyTagSkewsDepth` for
  `< k>`).
- Attributes collected by a tag with an empty name stay in `attrs` until
  the next block is emitted.
- The backslash "escape" before a closing quote calls `pop` and `push` on a
  string. Those methods do not exist, so the branch throws a `TypeError`.
  The model turns this into the error `EscapedQuote`.
- No error is raised inside an unquoted value.

## Model

| member | source | states |
|---|---|---|
| SfcParser.ParseSfc | sfc-parser.mjs:20-195 | The loop that stops at the first thrown error and then checks for end of input returns exactly `Parse(s)`, the fold of the per-character step followed by the end-of-file check. |
| SfcParser.OpenBlock | sfc-parser.mjs:75-78 | No contract of its own; the same code appears at lines 112-115 and 129-131. Characterised by `SfcRoundTrip.AttrsRun`, `SfcQuirks.EmptyTagName` and `SfcQuirks.EmptyTagWithAttr`. |
| SfcParser.Emit | sfc-parser.mjs:156-164 | No contract of its own; characterised by `SfcRoundTrip.CloseRun` and `SfcInvariants.ParsedBlocksValid`. |
| SfcParser.Step | sfc-parser.mjs:29-187 | No contract of its own; characterised by `SfcInvariants.StepPreservesValid`, `SfcSpans.StepSpans` and the per-mode lemmas. |
| SfcParser.Run | sfc-parser.mjs:26-188 | No contract of its own; characterised by `SfcRuns.RunAppend` and `SfcInvariants.RunPreservesValid`. |
| SfcParser.CommentStep | sfc-parser.mjs:29-40 | No contract of its own; characterised by `SfcRuns.CommentPrefix`, `SfcRoundTrip.CommentRun` and `SfcQuirks.TripleDashStaysOpen`. |
| SfcParser.AttrNameStep | sfc-parser.mjs:52-82 | No contract of its own; characterised by `SfcRuns.AttrNameRun`, `SfcRoundTrip.BareThen`, `SfcQuirks.EqualsWithoutName` and `SfcErrors.BadAttrNameChar`. |
| SfcParser.AttrValueStep | sfc-parser.mjs:84-120 | No contract of its own; characterised by `SfcRoundTrip.QuotedAttrRun`, `SfcRoundTrip.UnquotedAttrRun`, `SfcRuns.ValueRun` and the value errors of `SfcErrors`. |
| SfcParser.TagNameStep | sfc-parser.mjs:123-148 | No contract of its own; characterised by `SfcRuns.TagNameRun`, `SfcQuirks.EmptyTagName` and `SfcErrors.BadTagNameChar`. |
| SfcParser.TopStep | sfc-parser.mjs:41-150 | No contract of its own; characterised by `SfcErrors.BetweenBlocks` and the lemmas on its three branches. |
| SfcParser.ContentStep | sfc-parser.mjs:151-187 | No contract of its own; characterised by `SfcRuns.ContentToken` and `SfcRuns.ContentTextRun`. |
| SfcParser.Finish | sfc-parser.mjs:190-194 | No contract of its own; characterised by `SfcInvariants.FinishBetweenBlocks`. |
| SfcParser.Parse | sfc-parser.mjs:20-195 | No contract of its own; characterised by `SfcRoundTrip.ParseRender`, `SfcInvariants.ParseEndsBetweenBlocks` and the error lemmas. |
| Chars.IsWhitespace | sfc-parser.mjs:43 | No contract of its own; the ECMAScript `\s` set (WhiteSpace and LineTerminator code points), also used at lines 64, 86, 135 and 166. |
| Chars.IsNameChar | sfc-parser.mjs:53 | No contract of its own; `/[a-z0-9-]/i`, an ASCII letter of either case, a digit or `-`. |
| Chars.IsTagNameChar | sfc-parser.mjs:123 | No contract of its own; `/[a-z0-9-!]/i`, a name character or `!`. |
| Chars.Slice | sfc-parser.mjs:76 | No contract of its own; `.slice(k)` for non-negative `k`, also used at lines 113, 129, 154 and 166. |
| Chars.FirstWord | sfc-parser.mjs:166 | `split(/\s/, 2)[0]` is a prefix of the token with no whitespace in it, and it is either the whole token or followed by whitespace. |
| SfcRoundTrip.ParseRender | sfc-parser.mjs:26-194 | Every well-formed document parses to exactly the blocks it denotes, in document order. Each block has its verbatim body as content and the recorded attributes, or no attribute map when there are none. |
| SfcRoundTrip.TriviaOnly | sfc-parser.mjs:29-47 | A document of only whitespace and comments parses to no blocks. |
| SfcRoundTrip.AttrsRun | sfc-parser.mjs:51-121 | Scanning the attributes of an opening tag and its `>` records every attribute in order, with later names overwriting earlier ones, and then opens the block at depth 1. |
| SfcRoundTrip.QuotedAttrRun | sfc-parser.mjs:84-104 | ` k="v"` or ` k='v'` records `k` with `v` stripped of its quotes and ends the attribute. |
| SfcRoundTrip.UnquotedAttrRun | sfc-parser.mjs:107-120 | ` k=v>` records `v` exactly as written up to the `>` and opens the block. |
| SfcRoundTrip.BareThen | sfc-parser.mjs:64-79 | A bare name is recorded as mapping to itself when a space or `>` follows it, and the scan of the next attribute starts fresh. |
| SfcRoundTrip.WhitespaceAfterName | sfc-parser.mjs:64-68 | Any `\s` character after a bare name records the name as mapping to itself and starts a fresh name scan, whatever follows. |
| SfcRoundTrip.PiecesRun | sfc-parser.mjs:151-186 | A balanced body is appended verbatim to the content and leaves the depth at 1. |
| SfcRoundTrip.CloseRun | sfc-parser.mjs:153-164 | `</n>` at depth 1 emits the block with its content and attributes and resets the cursor. |
| SfcRoundTrip.ElementRun | sfc-parser.mjs:123-186 | An element between blocks appends exactly its block to the output and returns to the between-blocks state. |
| SfcRoundTrip.CommentRun | sfc-parser.mjs:29-40 | A comment `<!--` + whitespace + body + `-->` between blocks changes nothing. |
| SfcRoundTrip.DocRun | sfc-parser.mjs:26-188 | Scanning a well-formed document from any output appends the document's blocks to that output. |
| SfcRuns.RunAppend | sfc-parser.mjs:26-49 | Scanning `a + b` is scanning `b` from where `a` left off. An error thrown in `a` is the error of the whole input. |
| SfcRuns.ContentToken | sfc-parser.mjs:152-176 | Inside block `t`, a token `<inner>` emits the block only when it is `</t>` at depth 1. Any other token is appended verbatim and moves the depth down for `</t>`, up for a token whose first word is `t`, and not at all otherwise. |
| SfcRuns.TokenEnd | sfc-parser.mjs:153-175 | The `>` ending a buffered token decides between emitting, closing a level, opening a level and plain text, as the source's three tests do. |
| SfcRuns.CommentPrefix | sfc-parser.mjs:29-39 | Inside a comment, `partial` holds exactly the trailing dashes of the text read, as long as no `>` met exactly two of them. |
| SfcRuns.TagNameRun | sfc-parser.mjs:123-126 | Tag-name characters after `<` are collected into `partial`. |
| SfcRuns.AttrNameRun | sfc-parser.mjs:53-56 | Attribute-name characters are collected into the name scan. |
| SfcRuns.ValueRun | sfc-parser.mjs:92-120 | Inside a value, every character that is neither `>` nor the opening quote is appended to the value. |
| SfcRuns.ContentTextRun | sfc-parser.mjs:179-186 | Text without `<` inside a block is appended to the content unchanged. |
| SfcInvariants.StepPreservesValid | sfc-parser.mjs:29-187 | Every step keeps the cursor invariant: attribute names are valid, content is empty outside a block, comments hold only dashes in `partial`, and an open block has a valid name and depth of at least 1. |
| SfcInvariants.RunPreservesValid | sfc-parser.mjs:26-188 | Every state the scan reaches without throwing satisfies the invariant. |
| SfcInvariants.ParsedBlocksValid | sfc-parser.mjs:156-159 | Every returned block has a non-empty `[A-Za-z0-9!-]` tag. It carries `attrs` only when the map is non-empty, and its attribute names are non-empty `[A-Za-z0-9-]` words. |
| SfcInvariants.FinishBetweenBlocks | sfc-parser.mjs:190-194 | On a reachable state, the end-of-input check returns the emitted blocks exactly when the cursor is back between blocks, apart from leaked `attrs` and `depth`, and otherwise fails with `Unexpected end of file`. |
| SfcInvariants.ParseEndsBetweenBlocks | sfc-parser.mjs:20-194 | A parse succeeds exactly when the scan of the whole input ends between blocks, and then returns the blocks emitted during the scan. |
| SfcSpans.ContentVerbatim | sfc-parser.mjs:151-186 | For any input that parses, each block's content occurs in the input right after a `>` and right before its `</tag>`. |
| SfcSpans.RunSpans | sfc-parser.mjs:26-188 | The scan keeps the span invariant: emitted blocks occur in the text read, and an open block's content plus the pending token are the text since the opening `>`. |
| SfcSyntax.AttrsIntoKeys | sfc-parser.mjs:66-111 | The recorded attribute map holds exactly the names written. |
| SfcSyntax.AttrsIntoLastWins | sfc-parser.mjs:66-111 | A name written more than once maps to the value of its last occurrence. |
| SfcSyntax.AttrsIntoUntouched | sfc-parser.mjs:66-111 | Recording other names leaves a name's value unchanged. |
| SfcErrors.FailFast | sfc-parser.mjs:41-49 | Once a prefix throws, the whole input fails with the same error, whatever follows. |
| SfcErrors.BetweenBlocks | sfc-parser.mjs:42-49 | Between blocks, a character is accepted if and only if it is whitespace or `<`. Anything else is `Unexpected ..., expected whitespace or '<'`. |
| SfcErrors.StrayCharacter | sfc-parser.mjs:49 | Any other character after a valid document fails with that error. |
| SfcErrors.BadTagNameChar | sfc-parser.mjs:148 | A character in a tag name that is not a name character, whitespace or `>` fails with `expected tag name or '>'`. |
| SfcErrors.BadAttrNameChar | sfc-parser.mjs:82 | An illegal character in an attribute name fails with `expected whitespace, attribute name, or '>'`. |
| SfcErrors.MissingValueError | sfc-parser.mjs:85 | `=` directly followed by `>` fails with the missing-value error. |
| SfcErrors.UnterminatedQuote | sfc-parser.mjs:107-109 | A `>` before the closing quote fails and names the quote character. |
| SfcErrors.EscapeBeforeQuote | sfc-parser.mjs:96-99 | A backslash just before the closing quote makes the parse fail. |
| SfcErrors.HalfReadTag | sfc-parser.mjs:190-192 | Input that ends inside a tag name fails at end of file. |
| SfcErrors.HalfReadAttr | sfc-parser.mjs:190-192 | Input that ends inside an attribute name fails at end of file. |
| SfcErrors.HalfReadEquals | sfc-parser.mjs:190-192 | Input that ends right after the `=` of an attribute fails at end of file. |
| SfcErrors.HalfReadValue | sfc-parser.mjs:190-192 | Input that ends inside an attribute value, quoted or unquoted, fails at end of file. |
| SfcErrors.UnterminatedComment | sfc-parser.mjs:190-192 | Input that ends inside a comment fails at end of file. |
| SfcErrors.UnclosedBlock | sfc-parser.mjs:190-192 | Input that ends inside a block fails at end of file, however balanced its content is. |
| SfcQuirks.EmptyTagName | sfc-parser.mjs:128-132 | `<>` opens no block but raises the depth, and `Parse("<>")` succeeds with no blocks. |
| SfcQuirks.EmptyTagWithAttr | sfc-parser.mjs:71-79 | `< k>` records `k` and raises the depth without opening a block. |
| SfcQuirks.EmptyTagSkewsDepth | sfc-parser.mjs:154-171 | After `< k>`, the block that follows needs two closers. Its content keeps the first closer and it carries the leaked attribute `k`. |
| SfcQuirks.BareEmptyTagSkewsDepth | sfc-parser.mjs:128-171 | After a bare `<>`, the block that follows needs two closers, keeps the first closer in its content and has no attributes. |
| SfcQuirks.TripleDashStaysOpen | sfc-parser.mjs:30-38 | `--->` does not close a comment, because the `>` follows three dashes. |
| SfcQuirks.CommentNeedsSpace | sfc-parser.mjs:123-141 | `<!---->` is not a comment. It opens a block named `!----`. |
| SfcQuirks.NameAfterQuote | sfc-parser.mjs:102-132 | Tag-name characters right after a closing quote extend the block's tag name. |
| SfcQuirks.EqualsWithoutName | sfc-parser.mjs:58-61 | An `=` with no name before it is skipped, and `<n =k>` records `k` as a bare attribute. |
| SfcExamples.PlainBlock | tests.mjs:208 | `<n>x</n>` with no `<` in `x` gives one block with content `x` and no attributes. |
| SfcExamples.BareAttribute | tests.mjs:172-186 | `<n k>x</n>` records `{k: k}`. |
| SfcExamples.QuotedAttribute | tests.mjs:93-131 | `<n k="v">` and `<n k='v'>` both record `{k: v}`. |
| SfcExamples.UnquotedAttribute | tests.mjs:133-151 | `<n k=v>` records `{k: v}`, with spaces allowed inside `v`. |
| SfcExamples.SameNameNesting | tests.mjs:153-170 | An inner `<n ...>...</n>` is kept verbatim and does not end the block. |
| SfcExamples.ForeignToken | tests.mjs:237-251 | Any token that neither closes nor reopens `n` is kept as opaque text. |

## Left out

- The commented-out debug line (line 27) has no effect and is not modelled.
- The `COMMENT` symbol is modelled as the constructor `Comment`. Symbol identity plays no other role.
- Error messages are not modelled as strings. Each thrown error is a `ParseError` value. `UnexpectedChar` carries the character and which of the messages at lines 49, 82 and 148 applies. `UnterminatedQuotedValue` carries the quote. `MissingValue`, `EscapedQuote` and `UnexpectedEOF` carry nothing.
- Only the emptiness of the attribute object is used (`Object.entries(attrs).length`). It is modelled as a `map`, so key order is not represented.
- `for...of` iterates over code points. Dafny strings are sequences of Unicode scalar values, so input with lone surrogates is not representable.
- The escape branch (lines 96-99) is modelled by its observable effect, the thrown `TypeError`, as `EscapedQuote`. The escape the branch appears to aim at (a `\` keeping the quote in the value) is not modelled, because the code throws instead.
- `tests.mjs` is not transcribed literally. The single-block shapes of the attribute, nesting and foreign-token tests are proved for all names, values and texts that fit them (`SfcExamples`). The other tests have no lemma of their own: the template-only, nested JS expression, multi-block and comment tests are instances of `SfcRoundTrip.ParseRender` and `SfcRoundTrip.TriviaOnly`.
- Re-parsing a block's content is not claimed to round-trip. The content is opaque text.
- SfcSpans.ContentVerbatim: for an arbitrary input, it places each block's content after some `>` and right before the block's `</tag>`. It does not say that this `>` is the one ending the block's opening tag. For well-formed documents, `SfcRoundTrip.ParseRender` fixes the exact position.

=== FILE: chars.dfy ===
/** Character classes used by the scanner, stated in place of the regular
    expressions `\s`, `/[a-z0-9-]/i` and `/[a-z0-9-!]/i`. */
module Chars {

  /** Membership in the `\s` class of ECMAScript regular expressions: the
      WhiteSpace and LineTerminator code points of the language standard. */
  predicate IsWhitespace(c: char)
  {
    || c == '\t' || c == '\n' || c == '\U{B}' || c == '\U{C}' || c == '\r'
    || c == ' ' || c == '\U{A0}' || c == '\U{1680}'
    || ('\U{2000}' <= c <= '\U{200A}')
    || c == '\U{2028}' || c == '\U{2029}' || c == '\U{202F}' || c == '\U{205F}'
    || c == '\U{3000}' || c == '\U{FEFF}'
  }

  /** `/[a-z0-9-]/i`: an ASCII letter of either case, a digit or a dash. */
  predicate IsNameChar(c: char)
  {
    ('a' <= c <= 'z') || ('A' <= c <= 'Z') || ('0' <= c <= '9') || c == '-'
  }

  /** `/[a-z0-9-!]/i`: tag names also admit `!`, so that `<!--` can be seen. */
  predicate IsTagNameChar(c: char)
  {
    IsNameChar(c) || c == '!'
  }

  predicate AllNameChars(s: string)
  {
    forall i :: 0 <= i < |s| ==> IsNameChar(s[i])
  }

  predicate AllTagNameChars(s: string)
  {
    forall i :: 0 <= i < |s| ==> IsTagNameChar(s[i])
  }

  predicate NoWhitespace(s: string)
  {
    forall i :: 0 <= i < |s| ==> !IsWhitespace(s[i])
  }

  /** `s.slice(k)` for a non-negative `k`: the suffix from `k`, or the empty
      string when `k` is past the end. */
  function Slice(s: string, k: nat): string
  {
    if k <= |s| then s[k..] else []
  }

  /** `s.split(/\s/, 2)[0]`: the text before the first whitespace character. */
  function FirstWord(s: string): (r: string)
    ensures r <= s
    ensures NoWhitespace(r)
    ensures r == s || IsWhitespace(s[|r|])
  {
    if s == [] then []
    else if IsWhitespace(s[0]) then []
    else [s[0]] + FirstWord(s[1..])
  }
}

=== FILE: errors.dfy ===
/** The failure paths: the first error ends the parse with no result, and
    each malformed shape the scanner rejects fails with its own error. */
module SfcErrors {
  import opened Wrappers
  import opened Chars
  import opened SfcParser
  import opened SfcSyntax
  import opened SfcRuns
  import opened SfcRoundTrip

  /** Fail-fast: once a prefix fails, the whole input fails with the same
      error, whatever follows. */
  lemma FailFast(a: string, b: string, e: ParseError)
    requires Run(Init, a) == Err(e)
    ensures Parse(a + b) == Err(e)
  {
    RunAppend(Init, a, b);
  }

  /** Scanning a valid document leaves the state between blocks. */
  lemma DocPrefix(doc: seq<Item>, rest: string)
    requires ValidDoc(doc)
    ensures Run(Init, Render(doc) + rest) == Run(Clean(Blocks(doc)), rest)
  {
    DocRun([], doc);
    assert [] + Blocks(doc) == Blocks(doc);
    RunSeq(Init, Render(doc), rest, Clean(Blocks(doc)));
  }

  /** Between blocks only whitespace and `<` are accepted. */
  lemma BetweenBlocks(out: seq<Block>, c: char)
    ensures Step(Clean(out), c).Ok? <==> IsWhitespace(c) || c == '<'
    ensures !(IsWhitespace(c) || c == '<') ==> Step(Clean(out), c) == Err(UnexpectedChar(c, WhitespaceOrOpen))
  {
  }

  /** Any other character after a valid document is an error. */
  lemma StrayCharacter(doc: seq<Item>, c: char, rest: string)
    requires ValidDoc(doc) && !IsWhitespace(c) && c != '<'
    ensures Parse(Render(doc) + [c] + rest) == Err(UnexpectedChar(c, WhitespaceOrOpen))
  {
    DocPrefix(doc, [c]);
    BetweenBlocks(Blocks(doc), c);
    FailFast(Render(doc) + [c], rest, UnexpectedChar(c, WhitespaceOrOpen));
  }

  /** A valid document scans to the state between blocks. */
  lemma DocDone(doc: seq<Item>)
    requires ValidDoc(doc)
    ensures Run(Init, Render(doc)) == Ok(Clean(Blocks(doc)))
  {
    DocRun([], doc);
    assert [] + Blocks(doc) == Blocks(doc);
  }

  /** `<n` after a valid document: a tag name is being read. */
  lemma NamePrefix(doc: seq<Item>, n: string)
    requires ValidDoc(doc) && AllTagNameChars(n)
    ensures Run(Init, Render(doc) + "<" + n) == Ok(InTag("<" + n, map[], None, Blocks(doc)))
  {
    var out := Blocks(doc);
    var s1 := InTag("<", map[], None, out);
    DocDone(doc);
    One(Clean(out), '<');
    Then(Init, Render(doc), "<", Clean(out), s1);
    TagNameRun(s1, n);
    Then(Init, Render(doc) + "<", n, s1, InTag("<" + n, map[], None, out));
  }

  /** A character that is neither a tag-name character, whitespace nor `>`
      inside a tag name is an error. */
  lemma BadTagNameChar(doc: seq<Item>, n: string, c: char, rest: string)
    requires ValidDoc(doc) && AllTagNameChars(n)
    requires !IsTagNameChar(c) && !IsWhitespace(c) && c != '>'
    ensures Parse(Render(doc) + "<" + n + [c] + rest) == Err(UnexpectedChar(c, TagNameOrClose))
  {
    var s2 := InTag("<" + n, map[], None, Blocks(doc));
    NamePrefix(doc, n);
    One(s2, c);
    ThenFail(Init, Render(doc) + "<" + n, [c], s2, UnexpectedChar(c, TagNameOrClose));
    FailFast(Render(doc) + "<" + n + [c], rest, UnexpectedChar(c, TagNameOrClose));
  }

  /** ` k` inside an opening tag `<n` after a valid document: the attribute
      name `k` is being read. */
  lemma AttrPrefix(doc: seq<Item>, n: string, k: string)
    requires ValidDoc(doc) && AllTagNameChars(n) && n != "!--" && AllNameChars(k)
    ensures Run(Init, Render(doc) + "<" + n + " " + k)
            == Ok(InTag("<" + n, map[], Some(AttrScan(k, "")), Blocks(doc)))
  {
    var out := Blocks(doc);
    var p := "<" + n;
    var s2 := InTag(p, map[], None, out);
    var s3 := InTag(p, map[], Some(AttrScan("", "")), out);
    NamePrefix(doc, n);
    assert p[1..] == n && "<!--"[1..] == "!--";
    StepSpace(p, map[], None, out, ' ');
    One(s2, ' ');
    Then(Init, Render(doc) + "<" + n, " ", s2, s3);
    AttrNameRun(s3, "", k);
    assert "" + k == k;
    Then(Init, Render(doc) + "<" + n + " ", k, s3, InTag(p, map[], Some(AttrScan(k, "")), out));
  }

  /** An illegal character in an attribute name is an error. */
  lemma BadAttrNameChar(doc: seq<Item>, n: string, k: string, c: char, rest: string)
    requires ValidDoc(doc) && AllTagNameChars(n) && n != "!--" && AllNameChars(k)
    requires !IsNameChar(c) && c != '=' && !IsWhitespace(c) && c != '>'
    ensures Parse(Render(doc) + "<" + n + " " + k + [c] + rest) == Err(UnexpectedChar(c, AttrNameOrClose))
  {
    var s := InTag("<" + n, map[], Some(AttrScan(k, "")), Blocks(doc));
    AttrPrefix(doc, n, k);
    One(s, c);
    ThenFail(Init, Render(doc) + "<" + n + " " + k, [c], s, UnexpectedChar(c, AttrNameOrClose));
    FailFast(Render(doc) + "<" + n + " " + k + [c], rest, UnexpectedChar(c, AttrNameOrClose));
  }

  /** ` k=` inside an opening tag: the value is awaited. */
  lemma EqualsPrefix(doc: seq<Item>, n: string, k: string)
    requires ValidDoc(doc) && AllTagNameChars(n) && n != "!--" && IsAttrName(k)
    ensures Run(Init, Render(doc) + "<" + n + " " + k + "=")
            == Ok(InTag("<" + n, map[], Some(AttrScan("", k)), Blocks(doc)))
  {
    var s2 := InTag("<" + n, map[], Some(AttrScan(k, "")), Blocks(doc));
    AttrPrefix(doc, n, k);
    StepEquals("<" + n, map[], k, Blocks(doc));
    One(s2, '=');
    Then(Init, Render(doc) + "<" + n + " " + k, "=", s2, InTag("<" + n, map[], Some(AttrScan("", k)), Blocks(doc)));
  }

  /** `=` followed directly by `>` is a missing value. */
  lemma MissingValueError(doc: seq<Item>, n: string, k: string, rest: string)
    requires ValidDoc(doc) && AllTagNameChars(n) && n != "!--" && IsAttrName(k)
    ensures Parse(Render(doc) + "<" + n + " " + k + "=" + ">" + rest) == Err(MissingValue)
  {
    var s3 := InTag("<" + n, map[], Some(AttrScan("", k)), Blocks(doc));
    EqualsPrefix(doc, n, k);
    One(s3, '>');
    ThenFail(Init, Render(doc) + "<" + n + " " + k + "=", ">", s3, MissingValue);
    FailFast(Render(doc) + "<" + n + " " + k + "=" + ">", rest, MissingValue);
  }

  /** ` k=` and a value begun with `q` (an opening quote, or the first
      character of an unquoted value) followed by `v`. */
  lemma ValuePrefix(doc: seq<Item>, n: string, k: string, q: char, v: string)
    requires ValidDoc(doc) && AllTagNameChars(n) && n != "!--" && IsAttrName(k)
    requires q != '>' && !IsWhitespace(q) && forall i :: 0 <= i < |v| ==> ValueChar(q, v[i])
    ensures Run(Init, Render(doc) + "<" + n + " " + k + "=" + [q] + v)
            == Ok(InTag("<" + n, map[], Some(AttrScan([q] + v, k)), Blocks(doc)))
  {
    var s3 := InTag("<" + n, map[], Some(AttrScan("", k)), Blocks(doc));
    var s4 := InTag("<" + n, map[], Some(AttrScan([q], k)), Blocks(doc));
    EqualsPrefix(doc, n, k);
    StepValueFirst("<" + n, map[], k, Blocks(doc), q);
    One(s3, q);
    Then(Init, Render(doc) + "<" + n + " " + k + "=", [q], s3, s4);
    ValueRun(s4, [q], k, v);
    Then(Init, Render(doc) + "<" + n + " " + k + "=" + [q], v, s4,
         InTag("<" + n, map[], Some(AttrScan([q] + v, k)), Blocks(doc)));
  }

  /** A `>` before the closing quote of a quoted value is an error. */
  lemma UnterminatedQuote(doc: seq<Item>, n: string, k: string, q: char, v: string, rest: string)
    requires ValidDoc(doc) && AllTagNameChars(n) && n != "!--" && IsAttrName(k)
    requires IsQuote(q) && q !in v && '>' !in v
    ensures Parse(Render(doc) + "<" + n + " " + k + "=" + [q] + v + ">" + rest) == Err(UnterminatedQuotedValue(q))
  {
    var s5 := InTag("<" + n, map[], Some(AttrScan([q] + v, k)), Blocks(doc));
    ValuePrefix(doc, n, k, q, v);
    assert ([q] + v)[0] == q;
    One(s5, '>');
    ThenFail(Init, Render(doc) + "<" + n + " " + k + "=" + [q] + v, ">", s5, UnterminatedQuotedValue(q));
    FailFast(Render(doc) + "<" + n + " " + k + "=" + [q] + v + ">", rest, UnterminatedQuotedValue(q));
  }

  /** A backslash just before the closing quote fails: the source's escape
      branch calls string methods that do not exist. */
  lemma EscapeBeforeQuote(doc: seq<Item>, n: string, k: string, q: char, v: string, rest: string)
    requires ValidDoc(doc) && AllTagNameChars(n) && n != "!--" && IsAttrName(k)
    requires IsQuote(q) && q !in v && '>' !in v
    ensures Parse(Render(doc) + "<" + n + " " + k + "=" + [q] + (v + "\\") + [q] + rest) == Err(EscapedQuote)
  {
    var v' := v + "\\";
    forall i | 0 <= i < |v'| ensures ValueChar(q, v'[i]) {
      if i < |v| {
        assert v'[i] == v[i];
      }
    }
    var s5 := InTag("<" + n, map[], Some(AttrScan([q] + v', k)), Blocks(doc));
    ValuePrefix(doc, n, k, q, v');
    assert ([q] + v')[0] == q;
    assert ([q] + v')[|[q] + v'| - 1] == '\\';
    One(s5, q);
    ThenFail(Init, Render(doc) + "<" + n + " " + k + "=" + [q] + v', [q], s5, EscapedQuote);
    FailFast(Render(doc) + "<" + n + " " + k + "=" + [q] + v' + [q], rest, EscapedQuote);
  }

  /** Input that stops inside a tag name fails at the end. */
  lemma HalfReadTag(doc: seq<Item>, n: string)
    requires ValidDoc(doc) && AllTagNameChars(n)
    ensures Parse(Render(doc) + "<" + n) == Err(UnexpectedEOF)
  {
    NamePrefix(doc, n);
  }

  /** Input that stops inside an attribute name fails at the end. */
  lemma HalfReadAttr(doc: seq<Item>, n: string, k: string)
    requires ValidDoc(doc) && AllTagNameChars(n) && n != "!--" && AllNameChars(k)
    ensures Parse(Render(doc) + "<" + n + " " + k) == Err(UnexpectedEOF)
  {
    AttrPrefix(doc, n, k);
  }

  /** Input that stops right after the `=` of an attribute fails at the end. */
  lemma HalfReadEquals(doc: seq<Item>, n: string, k: string)
    requires ValidDoc(doc) && AllTagNameChars(n) && n != "!--" && IsAttrName(k)
    ensures Parse(Render(doc) + "<" + n + " " + k + "=") == Err(UnexpectedEOF)
  {
    EqualsPrefix(doc, n, k);
  }

  /** Input that stops inside an attribute value, quoted or not, fails at
      the end. */
  lemma HalfReadValue(doc: seq<Item>, n: string, k: string, q: char, v: string)
    requires ValidDoc(doc) && AllTagNameChars(n) && n != "!--" && IsAttrName(k)
    requires q != '>' && !IsWhitespace(q) && forall i :: 0 <= i < |v| ==> ValueChar(q, v[i])
    ensures Parse(Render(doc) + "<" + n + " " + k + "=" + [q] + v) == Err(UnexpectedEOF)
  {
    ValuePrefix(doc, n, k, q, v);
  }

  /** Input that stops inside a comment fails at the end. */
  lemma UnterminatedComment(doc: seq<Item>, w: char, b: string)
    requires ValidDoc(doc) && IsWhitespace(w)
    requires forall j :: 0 <= j < |b| && b[j] == '>' ==> TrailingDashes(b[..j]) != 2
    ensures Parse(Render(doc) + ("<!--" + ([w] + b))) == Err(UnexpectedEOF)
  {
    var out := Blocks(doc);
    DocPrefix(doc, "<!--" + ([w] + b));
    CommentOpenRun(out, w, b);
    CommentPrefix(out, b, |b|);
    assert b[..|b|] == b;
  }

  /** Input that stops inside a block fails at the end, however balanced
      its content is. */
  lemma UnclosedBlock(doc: seq<Item>, n: string, attrs: seq<Attribute>, body: seq<Piece>)
    requires ValidDoc(doc) && ValidItem(Element(n, attrs, body))
    ensures Parse(Render(doc) + ("<" + n + RenderAttrs(attrs) + ">" + RenderPieces(body))) == Err(UnexpectedEOF)
  {
    var out := Blocks(doc);
    DocPrefix(doc, "<" + n + RenderAttrs(attrs) + ">" + RenderPieces(body));
    UnclosedElementRun(out, n, attrs, body);
  }

  lemma UnclosedElementRun(out: seq<Block>, n: string, attrs: seq<Attribute>, body: seq<Piece>)
    requires ValidItem(Element(n, attrs, body))
    ensures Run(Clean(out), "<" + n + RenderAttrs(attrs) + ">" + RenderPieces(body))
            == Ok(InBlock(n, AttrsInto(map[], attrs), RenderPieces(body), 1, out))
  {
    var m := AttrsInto(map[], attrs);
    OpenTagRun(out, n, attrs, RenderPieces(body));
    PiecesRun(n, m, "", 1, out, body);
    assert "" + RenderPieces(body) == RenderPieces(body);
  }
}

=== FILE: examples.dfy ===
/** The shapes exercised by the repository's test file, each a corollary of
    the round trip over every tag name, attribute and text that fits it. */
module SfcExamples {
  import opened Wrappers
  import opened Chars
  import opened SfcParser
  import opened SfcSyntax
  import opened SfcRoundTrip

  /** A lone valid element parses to its one block; `ra` and `rp` are the
      rendered attributes and body. */
  lemma SingleElement(n: string, attrs: seq<Attribute>, body: seq<Piece>, ra: string, rp: string)
    requires ValidItem(Element(n, attrs, body))
    requires ra == RenderAttrs(attrs) && rp == RenderPieces(body)
    ensures Parse("<" + n + ra + ">" + rp + "</" + n + ">") == Ok([Block(n, rp, AttrsField(AttrsInto(map[], attrs)))])
  {
    var doc := [Element(n, attrs, body)];
    assert ValidDoc(doc);
    ParseRender(doc);
    assert doc[1..] == [];
    assert Render(doc) == RenderItem(doc[0]) + Render(doc[1..]);
    assert Render(doc[1..]) == "";
    assert Render(doc) == "<" + n + ra + ">" + rp + "</" + n + ">";
    assert Blocks(doc) == ItemBlocks(doc[0]) + Blocks(doc[1..]);
    assert Blocks(doc[1..]) == [];
    assert Blocks(doc) == [BlockOf(n, attrs, body)];
  }

  lemma TextBody(n: string, x: string)
    requires '<' !in x
    ensures Balanced([Text(x)], n, 1)
    ensures RenderPieces([Text(x)]) == x
  {
    assert [Text(x)][1..] == [];
    assert RenderPieces([Text(x)]) == x + "";
  }

  /** `<n>x</n>` with no `<` in `x`: one block, content `x`, no attributes. */
  lemma PlainBlock(n: string, x: string)
    requires IsTagName(n) && '<' !in x
    ensures Parse("<" + n + ">" + x + "</" + n + ">") == Ok([Block(n, x, None)])
  {
    TextBody(n, x);
    assert RenderAttrs([]) == "";
    SingleElement(n, [], [Text(x)], "", x);
    assert "<" + n + "" == "<" + n;
  }

  lemma OneAttr(n: string, a: Attribute, x: string)
    requires IsTagName(n) && n != "!--" && ValidAttr(a) && '<' !in x
    ensures Parse("<" + n + RenderAttr(a) + ">" + x + "</" + n + ">")
            == Ok([Block(n, x, Some(map[AttrKey(a) := AttrValue(a)]))])
  {
    TextBody(n, x);
    assert ValidAttrs([a]);
    assert [a][1..] == [];
    assert RenderAttrs([a]) == RenderAttr(a) + "";
    SingleElement(n, [a], [Text(x)], RenderAttr(a), x);
    var m := map[AttrKey(a) := AttrValue(a)];
    assert AttrsInto(map[], [a]) == AttrsInto(m, []) == m;
    assert AttrKey(a) in m;
  }

  /** `<style scoped>`: a bare attribute maps to its own name. */
  lemma BareAttribute(n: string, k: string, x: string)
    requires IsTagName(n) && n != "!--" && IsAttrName(k) && '<' !in x
    ensures Parse("<" + n + " " + k + ">" + x + "</" + n + ">") == Ok([Block(n, x, Some(map[k := k]))])
  {
    OneAttr(n, Bare(k), x);
    assert "<" + n + RenderAttr(Bare(k)) == "<" + n + " " + k;
  }

  /** `type="v"` and `type='v'`: the value is stored without its quotes. */
  lemma QuotedAttribute(n: string, k: string, q: char, v: string, x: string)
    requires IsTagName(n) && n != "!--" && IsAttrName(k) && IsQuote(q) && q !in v && '>' !in v && (v == [] || v[|v| - 1] != '\\')
    requires '<' !in x
    ensures Parse("<" + n + " " + k + "=" + [q] + v + [q] + ">" + x + "</" + n + ">") == Ok([Block(n, x, Some(map[k := v]))])
  {
    OneAttr(n, Quoted(k, q, v), x);
    assert "<" + n + RenderAttr(Quoted(k, q, v)) == "<" + n + " " + k + "=" + [q] + v + [q];
  }

  /** `type=v`: an unquoted value runs to `>`, whitespace included. */
  lemma UnquotedAttribute(n: string, k: string, v: string, x: string)
    requires IsTagName(n) && n != "!--" && IsAttrName(k) && v != [] && !IsWhitespace(v[0]) && !IsQuote(v[0]) && '>' !in v
    requires '<' !in x
    ensures Parse("<" + n + " " + k + "=" + v + ">" + x + "</" + n + ">") == Ok([Block(n, x, Some(map[k := v]))])
  {
    OneAttr(n, Unquoted(k, v), x);
    assert "<" + n + RenderAttr(Unquoted(k, v)) == "<" + n + " " + k + "=" + v;
  }

  /** `<n><n a="b">x</n></n>`: an inner tag of the same name, attributes and
      all, is kept verbatim and does not end the block. */
  lemma SameNameNesting(n: string, rest: string, x: string)
    requires IsTagName(n) && '<' !in x && '>' !in rest && (rest == [] || IsWhitespace(rest[0]))
    ensures Parse("<" + n + ">" + ("<" + (n + rest) + ">" + (x + ("<" + ("/" + n) + ">"))) + "</" + n + ">")
            == Ok([Block(n, "<" + (n + rest) + ">" + (x + ("<" + ("/" + n) + ">")), None)])
  {
    var body := [Token(n + rest), Text(x), Token("/" + n)];
    NestedBody(n, rest, x);
    assert RenderAttrs([]) == "";
    SingleElement(n, [], body, "", RenderPieces(body));
    assert "<" + n + "" == "<" + n;
  }

  /** The body of `SameNameNesting` is balanced and renders as written. */
  lemma NestedBody(n: string, rest: string, x: string)
    requires IsTagName(n) && '<' !in x && '>' !in rest && (rest == [] || IsWhitespace(rest[0]))
    ensures Balanced([Token(n + rest), Text(x), Token("/" + n)], n, 1)
    ensures RenderPieces([Token(n + rest), Text(x), Token("/" + n)]) == "<" + (n + rest) + ">" + (x + ("<" + ("/" + n) + ">"))
  {
    var open, close := n + rest, "/" + n;
    var body := [Token(open), Text(x), Token(close)];
    NestedEffects(n, rest);
    assert body[1..] == [Text(x), Token(close)] && body[1..][1..] == [Token(close)] && body[1..][1..][1..] == [];
    assert Balanced(body[1..][1..], n, 2);
    assert Balanced(body[1..], n, 2);
    assert RenderPieces(body[1..][1..]) == "<" + close + ">" + "";
    assert RenderPieces(body[1..]) == x + RenderPieces(body[1..][1..]);
  }

  /** `<n rest>` opens a level of block `n` and `</n>` closes one. */
  lemma NestedEffects(n: string, rest: string)
    requires IsTagName(n) && '>' !in rest && (rest == [] || IsWhitespace(rest[0]))
    ensures Effect(n + rest, n) == 1 && Effect("/" + n, n) == -1
    ensures '>' !in n + rest && '>' !in "/" + n
  {
    var open, close := n + rest, "/" + n;
    assert FirstWord(open) == n by { FirstWordOf(n, rest); }
    assert close[1..] == n && "/" <= close;
    assert !("/" <= open) by {
      assert open[0] == n[0] && IsTagNameChar(n[0]);
    }
    assert '>' !in open by {
      assert !IsTagNameChar('>');
      forall i | 0 <= i < |open| ensures open[i] != '>' {
        if i < |n| { assert open[i] == n[i]; } else { assert open[i] == rest[i - |n|]; }
      }
    }
    assert '>' !in close by {
      assert !IsTagNameChar('>');
      assert forall i :: 0 <= i < |n| ==> close[i + 1] == n[i];
    }
  }

  lemma {:induction false} FirstWordOf(n: string, rest: string)
    requires NoWhitespace(n) && (rest == [] || IsWhitespace(rest[0]))
    ensures FirstWord(n + rest) == n
    decreases |n|
  {
    if n == [] {
      assert n + rest == rest;
    } else {
      var s := n + rest;
      assert s[0] == n[0] && !IsWhitespace(n[0]);
      assert s[1..] == n[1..] + rest;
      assert NoWhitespace(n[1..]) by {
        forall i | 0 <= i < |n[1..]| ensures !IsWhitespace(n[1..][i]) {
          assert n[1..][i] == n[i + 1];
        }
      }
      FirstWordOf(n[1..], rest);
      assert FirstWord(s) == [n[0]] + FirstWord(s[1..]);
      assert [n[0]] + n[1..] == n;
    }
  }

  /** `<template><meta charset="UTF-8" /></template>`: a token whose first
      word is another name is opaque text, however it is shaped. */
  lemma ForeignToken(n: string, inner: string)
    requires IsTagName(n) && '>' !in inner && FirstWord(inner) != n && inner != "/" + n
    ensures Parse("<" + n + ">" + ("<" + inner + ">") + "</" + n + ">") == Ok([Block(n, "<" + inner + ">", None)])
  {
    ForeignBody(n, inner);
    assert RenderAttrs([]) == "";
    SingleElement(n, [], [Token(inner)], "", "<" + inner + ">");
    assert "<" + n + "" == "<" + n;
  }

  /** The body of `ForeignToken` is balanced and renders as written. */
  lemma ForeignBody(n: string, inner: string)
    requires IsTagName(n) && '>' !in inner && FirstWord(inner) != n && inner != "/" + n
    ensures ValidItem(Element(n, [], [Token(inner)]))
    ensures RenderPieces([Token(inner)]) == "<" + inner + ">"
  {
    var body := [Token(inner)];
    assert Effect(inner, n) == 0 by {
      assert "/" <= inner ==> inner == "/" + inner[1..];
    }
    assert body[0] == Token(inner) && body[1..] == [];
    assert Balanced(body[1..], n, 1);
    assert Balanced(body, n, 1);
    assert RenderPieces(body) == "<" + inner + ">" + "";
  }

}

=== FILE: invariants.dfy ===
/** What every reachable cursor state satisfies, and what that says about the
    blocks a successful parse returns. */
module SfcInvariants {
  import opened Wrappers
  import opened Chars
  import opened SfcParser

  /** Attribute names are non-empty runs of `[A-Za-z0-9-]`. */
  predicate ValidKeys(m: map<string, string>)
  {
    forall k :: k in m ==> k != "" && AllNameChars(k)
  }

  /** An emitted block: a non-empty tag name of tag-name characters, and an
      attribute map that is present only when it holds something. */
  predicate ValidBlock(b: Block)
  {
    && b.tag != ""
    && AllTagNameChars(b.tag)
    && (b.attrs.Some? ==> b.attrs.value != map[] && ValidKeys(b.attrs.value))
  }

  predicate AllDashes(s: string)
  {
    forall i :: 0 <= i < |s| ==> s[i] == '-'
  }

  /** The attribute scan: a name still being read holds only name
      characters; a finished name is a non-empty one. */
  predicate ValidScan(a: AttrScan)
  {
    AllNameChars(a.n) && (a.n == "" ==> AllNameChars(a.p))
  }

  predicate Valid(st: State)
  {
    && st.depth >= 0
    && ValidKeys(st.attrs)
    && (forall k :: 0 <= k < |st.out| ==> ValidBlock(st.out[k]))
    && match st.tag
       case Comment =>
         st.depth >= 1 && st.attr.None? && st.content == "" && AllDashes(st.partial)
       case NoTag =>
         && st.content == ""
         && (st.partial != "" ==> st.partial[0] == '<' && AllTagNameChars(st.partial[1..]))
         && (st.attr.Some? ==> st.partial != "" && ValidScan(st.attr.value))
       case Name(t) =>
         && t != ""
         && AllTagNameChars(t)
         && st.depth >= 1
         && st.attr.None?
         && (st.partial != "" ==> st.partial[0] == '<')
  }

  lemma InitValid()
    ensures Valid(Init)
  {
  }

  lemma OpenBlockValid(st: State)
    requires Valid(st) && st.tag == NoTag && st.partial != ""
    ensures Valid(OpenBlock(st))
  {
  }

  lemma AttrNameStepValid(st: State, a: AttrScan, c: char)
    requires Valid(st) && st.tag == NoTag && st.partial != "" && st.attr == Some(a) && a.n == ""
    ensures AttrNameStep(st, a, c).Ok? ==> Valid(AttrNameStep(st, a, c).value)
  {
    if IsNameChar(c) {
      var p' := a.p + [c];
      assert AllNameChars(p');
    } else if c == '>' {
      var attrs := if a.p != "" then st.attrs[a.p := a.p] else st.attrs;
      OpenBlockValid(st.(attrs := attrs));
    }
  }

  lemma AttrValueStepValid(st: State, a: AttrScan, c: char)
    requires Valid(st) && st.tag == NoTag && st.partial != "" && st.attr == Some(a) && a.n != ""
    ensures AttrValueStep(st, a, c).Ok? ==> Valid(AttrValueStep(st, a, c).value)
  {
    if a.p != "" && c == '>' && !(a.p[0] == '"' || a.p[0] == '\'') {
      OpenBlockValid(st.(attrs := st.attrs[a.n := a.p]));
    }
  }

  lemma TagNameStepValid(st: State, c: char)
    requires Valid(st) && st.tag == NoTag && st.partial != "" && st.attr.None?
    ensures TagNameStep(st, c).Ok? ==> Valid(TagNameStep(st, c).value)
  {
    if IsTagNameChar(c) {
      var p' := st.partial + [c];
      assert p'[1..] == st.partial[1..] + [c];
    } else if c == '>' {
      OpenBlockValid(st);
    }
  }

  lemma ContentStepValid(st: State, t: string, c: char)
    requires Valid(st) && st.tag == Name(t)
    ensures Valid(ContentStep(st, t, c))
  {
    var next := ContentStep(st, t, c);
    if st.partial != "" && c == '>' && "</" <= st.partial && Slice(st.partial, 2) == t && st.depth - 1 == 0 {
      var b := next.out[|next.out| - 1];
      assert next.out == st.out + [b];
      assert ValidBlock(b);
    }
  }

  /** Every step from a valid state that does not fail reaches a valid state. */
  lemma StepPreservesValid(st: State, c: char)
    requires Valid(st)
    ensures Step(st, c).Ok? ==> Valid(Step(st, c).value)
  {
    match st.tag
    case Comment =>
    case NoTag =>
      if st.partial != "" {
        match st.attr
        case Some(a) =>
          if a.n == "" {
            AttrNameStepValid(st, a, c);
          } else {
            AttrValueStepValid(st, a, c);
          }
        case None =>
          TagNameStepValid(st, c);
      }
    case Name(t) =>
      ContentStepValid(st, t, c);
  }

  /** Every state the scan reaches without failing is valid. */
  lemma {:induction false} RunPreservesValid(st: State, s: string)
    requires Valid(st)
    ensures Run(st, s).Ok? ==> Valid(Run(st, s).value)
    decreases |s|
  {
    if s != [] {
      StepPreservesValid(st, s[0]);
      if Step(st, s[0]).Ok? {
        RunPreservesValid(Step(st, s[0]).value, s[1..]);
      }
    }
  }

  /** Every block of a successful parse has a non-empty tag name made of
      `[A-Za-z0-9!-]`, carries an attribute map only when that map is
      non-empty, and uses only non-empty `[A-Za-z0-9-]` attribute names. */
  lemma ParsedBlocksValid(s: string)
    ensures Parse(s).Ok? ==> forall k :: 0 <= k < |Parse(s).value| ==> ValidBlock(Parse(s).value[k])
  {
    InitValid();
    RunPreservesValid(Init, s);
  }

  /** The end-of-input check accepts a valid state exactly when it is back
      between blocks, up to the two fields the source does not reset there:
      `attrs` left by a tag with an empty name, and `depth`. Any other state
      is rejected with the end-of-file error. */
  lemma FinishBetweenBlocks(st: State)
    requires Valid(st)
    ensures Finish(st) == Ok(st.out) <==> st.(attrs := map[], depth := 0) == Clean(st.out)
    ensures Finish(st).Err? ==> Finish(st) == Err(UnexpectedEOF)
  {
  }

  /** A parse succeeds exactly when the scan of the whole input ends between
      blocks, and it then returns the blocks emitted on the way. */
  lemma ParseEndsBetweenBlocks(s: string)
    ensures Parse(s).Ok? <==> Run(Init, s).Ok? && Run(Init, s).value.(attrs := map[], depth := 0) == Clean(Run(Init, s).value.out)
    ensures Parse(s).Ok? ==> Parse(s).value == Run(Init, s).value.out
  {
    InitValid();
    RunPreservesValid(Init, s);
    if Run(Init, s).Ok? {
      FinishBetweenBlocks(Run(Init, s).value);
    }
  }
}

=== FILE: parser.dfy ===
/** The single-pass state machine of `parseSfc`: a pure `Step` per character,
    folded over the input by `Run`, followed by the end-of-input check. */
module SfcParser {
  import opened Wrappers
  import opened Chars

  /** The block currently open. `NoTag` is the empty (falsy) tag of the
      source, `Comment` replaces its comment sentinel. */
  datatype Tag = NoTag | Comment | Name(name: string)

  /** An attribute being scanned: `p` is the text collected so far and `n`
      the finished name; an empty `n` means the name is still being read. */
  datatype AttrScan = AttrScan(p: string, n: string)

  /** One top-level block. `attrs` is present only when some attribute was
      recorded. */
  datatype Block = Block(tag: string, content: string, attrs: Option<map<string, string>>)

  /** The alternatives named by the three "Unexpected character" messages. */
  datatype Expected = WhitespaceOrOpen | AttrNameOrClose | TagNameOrClose

  datatype ParseError =
    | UnexpectedChar(c: char, expected: Expected)
    | MissingValue
    | UnterminatedQuotedValue(quote: char)
    | EscapedQuote
    | UnexpectedEOF

  /** The cursor of the scan, with the blocks emitted so far in `out`. */
  datatype State = State(
    partial: string,
    tag: Tag,
    attrs: map<string, string>,
    attr: Option<AttrScan>,
    content: string,
    depth: int,
    out: seq<Block>)

  /** The state between blocks, after `out` has been emitted. */
  function Clean(out: seq<Block>): State
  {
    State("", NoTag, map[], None, "", 0, out)
  }

  const Init: State := Clean([])

  function TagOf(name: string): Tag
  {
    if name == "" then NoTag else Name(name)
  }

  /** The `>` that ends an opening tag: the tag becomes the text collected
      after `<`, and depth goes up by one (sfc-parser.mjs:75-78, 112-115 and
      129-131). */
  function OpenBlock(st: State): State
  {
    st.(tag := TagOf(Slice(st.partial, 1)), partial := "", attr := None, depth := st.depth + 1)
  }

  /** Emission of the finished block and reset of the per-block state
      (sfc-parser.mjs:156-164). */
  function Emit(st: State, t: string): State
  {
    var block := Block(t, st.content, if st.attrs == map[] then None else Some(st.attrs));
    st.(tag := NoTag, partial := "", attrs := map[], content := "", depth := 0, out := st.out + [block])
  }

  /** Comment mode (sfc-parser.mjs:29-40): `partial` counts the dashes just
      seen. */
  function CommentStep(st: State, c: char): State
  {
    if c == '-' then st.(partial := st.partial + [c])
    else if c == '>' && st.partial == "--" then st.(partial := "", tag := NoTag, depth := st.depth - 1)
    else st.(partial := "")
  }

  /** Reading the name of an attribute, `a.n` still empty
      (sfc-parser.mjs:52-82). */
  function AttrNameStep(st: State, a: AttrScan, c: char): Result<State, ParseError>
  {
    if IsNameChar(c) then Ok(st.(attr := Some(a.(p := a.p + [c]))))
    else if c == '=' then Ok(st.(attr := Some(AttrScan("", a.p))))
    else if IsWhitespace(c) then
      if a.p == "" then Ok(st)
      else Ok(st.(attrs := st.attrs[a.p := a.p], attr := Some(a.(p := ""))))
    else if c == '>' then
      var attrs := if a.p != "" then st.attrs[a.p := a.p] else st.attrs;
      Ok(OpenBlock(st.(attrs := attrs)))
    else Err(UnexpectedChar(c, AttrNameOrClose))
  }

  /** Reading the value of attribute `a.n`; `a.p` keeps an opening quote
      (sfc-parser.mjs:84-120). */
  function AttrValueStep(st: State, a: AttrScan, c: char): Result<State, ParseError>
  {
    if a.p == "" then
      if c == '>' then Err(MissingValue)
      else if IsWhitespace(c) then Ok(st)
      else Ok(st.(attr := Some(a.(p := a.p + [c]))))
    else if (a.p[0] == '"' && c == '"') || (a.p[0] == '\'' && c == '\'') then
      if a.p[|a.p| - 1] == '\\' then Err(EscapedQuote)
      else Ok(st.(attrs := st.attrs[a.n := a.p[1..]], attr := None))
    else if c == '>' then
      if a.p[0] == '"' || a.p[0] == '\'' then Err(UnterminatedQuotedValue(a.p[0]))
      else Ok(OpenBlock(st.(attrs := st.attrs[a.n := a.p])))
    else Ok(st.(attr := Some(a.(p := a.p + [c]))))
  }

  /** Reading a tag name after `<`, no attribute in progress
      (sfc-parser.mjs:123-148). */
  function TagNameStep(st: State, c: char): Result<State, ParseError>
  {
    if IsTagNameChar(c) then Ok(st.(partial := st.partial + [c]))
    else if c == '>' then Ok(OpenBlock(st))
    else if IsWhitespace(c) then
      if st.partial == "<!--" then Ok(st.(tag := Comment, partial := "", depth := st.depth + 1))
      else Ok(st.(attr := Some(AttrScan("", ""))))
    else Err(UnexpectedChar(c, TagNameOrClose))
  }

  /** Top level: between blocks, or inside an opening tag
      (sfc-parser.mjs:41-150). */
  function TopStep(st: State, c: char): Result<State, ParseError>
  {
    if st.partial == "" then
      if IsWhitespace(c) then Ok(st)
      else if c == '<' then Ok(st.(partial := "<"))
      else Err(UnexpectedChar(c, WhitespaceOrOpen))
    else
      match st.attr
      case Some(a) => if a.n == "" then AttrNameStep(st, a, c) else AttrValueStep(st, a, c)
      case None => TagNameStep(st, c)
  }

  /** Inside block `t`: text is kept verbatim; a `<...>` token is buffered in
      `partial` and only tokens naming `t` change the depth
      (sfc-parser.mjs:151-187). */
  function ContentStep(st: State, t: string, c: char): State
  {
    if st.partial != "" then
      if c == '>' then
        if "</" <= st.partial && Slice(st.partial, 2) == t then
          if st.depth - 1 == 0 then Emit(st, t)
          else st.(depth := st.depth - 1, content := st.content + st.partial + [c], partial := "")
        else if FirstWord(Slice(st.partial, 1)) == t then
          st.(depth := st.depth + 1, content := st.content + st.partial + [c], partial := "")
        else st.(content := st.content + st.partial + [c], partial := "")
      else st.(partial := st.partial + [c])
    else if c == '<' then st.(partial := [c])
    else st.(content := st.content + [c])
  }

  /** One iteration of the scanning loop (sfc-parser.mjs:28-187). */
  function Step(st: State, c: char): Result<State, ParseError>
  {
    match st.tag
    case Comment => Ok(CommentStep(st, c))
    case NoTag => TopStep(st, c)
    case Name(t) => Ok(ContentStep(st, t, c))
  }

  /** The loop over the input, stopping at the first error
      (sfc-parser.mjs:26-188). */
  function Run(st: State, s: string): Result<State, ParseError>
    decreases |s|
  {
    if s == [] then Ok(st)
    else
      match Step(st, s[0])
      case Err(e) => Err(e)
      case Ok(st') => Run(st', s[1..])
  }

  /** The end-of-input check (sfc-parser.mjs:190-194). */
  function Finish(st: State): Result<seq<Block>, ParseError>
  {
    if st.tag != NoTag || st.partial != "" || st.attr.Some? then Err(UnexpectedEOF)
    else Ok(st.out)
  }

  /** `parseSfc` as a function (sfc-parser.mjs:20-195). */
  function Parse(s: string): Result<seq<Block>, ParseError>
  {
    match Run(Init, s)
    case Err(e) => Err(e)
    case Ok(st) => Finish(st)
  }

  /** `parseSfc` as the source writes it: one loop over the characters that
      stops at the first error, then the end-of-input check. */
  method ParseSfc(s: string) returns (r: Result<seq<Block>, ParseError>)
    ensures r == Parse(s)
  {
    var st := Init;
    var i := 0;
    while i < |s|
      invariant 0 <= i <= |s|
      invariant Run(st, s[i..]) == Run(Init, s)
    {
      match Step(st, s[i]) {
        case Err(e) =>
          return Err(e);
        case Ok(next) =>
          st := next;
      }
      i := i + 1;
    }
    r := Finish(st);
  }
}

=== FILE: quirks.dfy ===
/** Behaviour the scanner has as written, stated exactly: these are the
    edges where it departs from what a reader of HTML might expect. */
module SfcQuirks {
  import opened Wrappers
  import opened Chars
  import opened SfcParser
  import opened SfcSyntax
  import opened SfcRuns
  import opened SfcRoundTrip

  /** `<>` opens nothing (its name is empty) but still raises the depth, so
      the end-of-input check passes on `<>` alone. */
  lemma EmptyTagName(out: seq<Block>)
    ensures Run(Clean(out), "<>") == Ok(Clean(out).(depth := 1))
    ensures Parse("<>") == Ok([])
  {
    var s1 := Clean(out).(partial := "<");
    assert Step(Clean(out), '<') == Ok(s1);
    assert Slice("<", 1) == "";
    assert Step(s1, '>') == Ok(Clean(out).(depth := 1));
    assert "<>" == ['<'] + (['>'] + []);
    Chain(Clean(out), '<', ['>'] + [], s1);
    Chain(s1, '>', [], Clean(out).(depth := 1));
  }

  /** `< k>` records attribute `k` and raises the depth without opening a
      block; the attribute stays pending for the next block. */
  lemma EmptyTagWithAttr(out: seq<Block>, k: string)
    requires IsAttrName(k)
    ensures Run(Clean(out), "< " + k + ">") == Ok(Clean(out).(attrs := map[k := k], depth := 1))
  {
    assert "< " + k + ">" == "<" + "" + " " + k + ">";
    assert AllTagNameChars("");
    assert "<" + "" == "<";
    SpaceNameAfterTag(out, "", k, ">");
    var s2 := InTag("<", map[], Some(AttrScan(k, "")), out);
    assert Slice("<", 1) == "";
    assert Step(s2, '>') == Ok(Clean(out).(attrs := map[k := k], depth := 1));
  }

  lemma SpaceNameAfterTag(out: seq<Block>, n: string, k: string, rest: string)
    requires AllTagNameChars(n) && n != "!--" && IsAttrName(k)
    ensures Run(Clean(out), "<" + n + " " + k + rest) == Run(InTag("<" + n, map[], Some(AttrScan(k, "")), out), rest)
  {
    assert "<" + n + " " + k + rest == "<" + n + (" " + k + rest);
    TagStartRun(out, n, " " + k + rest);
    assert ("<" + n)[1..] == n && "<!--"[1..] == "!--";
    SpaceName("<" + n, map[], None, out, k, rest);
  }

  /** `<n>` read at depth 1 between blocks opens `n` at depth 2. */
  lemma OpenAtDepthOne(m: map<string, string>, n: string, rest: string)
    requires IsTagName(n)
    ensures Run(Clean([]).(attrs := m, depth := 1), "<" + n + ">" + rest) == Run(InBlock(n, m, "", 2, []), rest)
  {
    var s0 := Clean([]).(attrs := m, depth := 1);
    var s1 := s0.(partial := "<");
    assert "<" + n + ">" + rest == ['<'] + (n + (['>'] + rest));
    assert Step(s0, '<') == Ok(s1);
    Chain(s0, '<', n + (['>'] + rest), s1);
    TagNameRun(s1, n);
    var s2 := s0.(partial := "<" + n);
    RunSeq(s1, n, ['>'] + rest, s2);
    assert Slice("<" + n, 1) == n;
    assert Step(s2, '>') == Ok(InBlock(n, m, "", 2, []));
    Chain(s2, '>', rest, InBlock(n, m, "", 2, []));
  }

  /** At depth 2, text and two closers `</n>` emit one block whose content
      keeps the first closer. */
  lemma TwoClosers(m: map<string, string>, n: string, t: string)
    requires IsTagName(n) && '<' !in t
    ensures Run(InBlock(n, m, "", 2, []), t + (Closer(n) + Closer(n)))
            == Ok(Clean([Block(n, t + Closer(n), AttrsField(m))]))
  {
    var close := Closer(n);
    var s3 := InBlock(n, m, "", 2, []);
    var s4 := InBlock(n, m, t, 2, []);
    var s5 := InBlock(n, m, t + close, 1, []);
    FirstCloser(m, n, t);
    assert "" + t == t;
    ContentTextRun(s3, n, t);
    RunSeq(s3, t, close + close, s4);
    RunSeq(s4, close, close, s5);
    CloseRun(n, m, t + close, []);
    assert [] + [Block(n, t + close, AttrsField(m))] == [Block(n, t + close, AttrsField(m))];
  }

  lemma FirstCloser(m: map<string, string>, n: string, t: string)
    requires IsTagName(n)
    ensures Run(InBlock(n, m, t, 2, []), Closer(n)) == Ok(InBlock(n, m, t + Closer(n), 1, []))
  {
    var inner := "/" + n;
    assert inner[1..] == n && "/" <= inner;
    assert '>' !in inner by {
      assert !IsTagNameChar('>');
      assert forall i :: 0 <= i < |n| ==> inner[i + 1] == n[i];
    }
    assert "<" + inner + ">" == Closer(n);
    assert Effect(inner, n) == -1;
    ContentToken(InBlock(n, m, t, 2, []), n, inner);
    assert t + "<" + inner + ">" == t + Closer(n);
  }

  /** After `< k>`, the depth is one too high: the first `</n>` of the next
      block `n` only lowers it, and the second one emits the block, with the
      first closer inside its content and `k` among its attributes. */
  lemma EmptyTagSkewsDepth(n: string, k: string, t: string)
    requires IsTagName(n) && IsAttrName(k) && '<' !in t
    ensures Parse("< " + k + ">" + ("<" + n + ">" + t + Closer(n) + Closer(n)))
            == Ok([Block(n, t + Closer(n), Some(map[k := k]))])
  {
    var m := map[k := k];
    var closers := Closer(n) + Closer(n);
    EmptyTagWithAttr([], k);
    RunSeq(Init, "< " + k + ">", "<" + n + ">" + t + Closer(n) + Closer(n), Clean([]).(attrs := m, depth := 1));
    assert "<" + n + ">" + t + Closer(n) + Closer(n) == "<" + n + ">" + (t + closers);
    OpenAtDepthOne(m, n, t + closers);
    TwoClosers(m, n, t);
    assert k in m;
    assert AttrsField(m) == Some(m);
  }

  /** The same skew after a bare `<>`: the next block `n` needs two closers,
      keeps the first one in its content, and has no attributes. */
  lemma BareEmptyTagSkewsDepth(n: string, t: string)
    requires IsTagName(n) && '<' !in t
    ensures Parse("<>" + ("<" + n + ">" + t + Closer(n) + Closer(n)))
            == Ok([Block(n, t + Closer(n), None)])
  {
    var m: map<string, string> := map[];
    var closers := Closer(n) + Closer(n);
    EmptyTagName([]);
    assert Clean([]).(depth := 1) == Clean([]).(attrs := m, depth := 1);
    RunSeq(Init, "<>", "<" + n + ">" + t + Closer(n) + Closer(n), Clean([]).(attrs := m, depth := 1));
    assert "<" + n + ">" + t + Closer(n) + Closer(n) == "<" + n + ">" + (t + closers);
    OpenAtDepthOne(m, n, t + closers);
    TwoClosers(m, n, t);
    assert AttrsField(m) == None;
  }

  /** A run of three or more dashes before `>` does not close a comment. */
  lemma TripleDashStaysOpen(out: seq<Block>)
    ensures Run(InComment(out, 0), "--->") == Ok(InComment(out, 0))
  {
    assert Dashes(0) + ['-'] == Dashes(1) && Dashes(1) + ['-'] == Dashes(2) && Dashes(2) + ['-'] == Dashes(3);
    assert Dashes(3) != "--" && Dashes(0) == "";
    assert "--->" == ['-'] + (['-'] + (['-'] + (['>'] + [])));
    Chain(InComment(out, 0), '-', ['-'] + (['-'] + (['>'] + [])), InComment(out, 1));
    Chain(InComment(out, 1), '-', ['-'] + (['>'] + []), InComment(out, 2));
    Chain(InComment(out, 2), '-', ['>'] + [], InComment(out, 3));
    Chain(InComment(out, 3), '>', [], InComment(out, 0));
  }

  /** `<!--` opens a comment only when whitespace follows; `<!---->` opens a
      block named `!----`. */
  lemma CommentNeedsSpace(out: seq<Block>)
    ensures Run(Clean(out), "<!---->") == Ok(InBlock("!----", map[], "", 1, out))
  {
    assert AllTagNameChars("!----");
    assert "<!---->" == "<" + "!----" + ">";
    TagStartRun(out, "!----", ">");
    assert Slice("<" + "!----", 1) == "!----";
    assert Step(InTag("<" + "!----", map[], None, out), '>') == Ok(InBlock("!----", map[], "", 1, out));
  }

  /** Tag-name characters right after a closing quote extend the tag name. */
  lemma NameAfterQuote(out: seq<Block>, n: string, k: string, q: char, v: string, n2: string)
    requires IsTagName(n) && n != "!--" && ValidAttr(Quoted(k, q, v)) && AllTagNameChars(n2)
    ensures Run(Clean(out), "<" + n + RenderAttr(Quoted(k, q, v)) + n2 + ">")
            == Ok(InBlock(n + n2, map[k := v], "", 1, out))
  {
    var p := "<" + n;
    var a := RenderAttr(Quoted(k, q, v));
    var s1 := InTag(p, map[], None, out);
    var s2 := InTag(p, map[k := v], None, out);
    var s3 := InTag(p + n2, map[k := v], None, out);
    TagStartRun(out, n, "");
    assert p + "" == p;
    assert p[1..] == n && "<!--"[1..] == "!--";
    QuotedAttrRun(p, map[], None, out, k, q, v, "");
    assert a + "" == a;
    Then(Clean(out), p, a, s1, s2);
    TagNameRun(s2, n2);
    Then(Clean(out), p + a, n2, s2, s3);
    StepTagClose(p + n2, map[k := v], out);
    One(s3, '>');
    Then(Clean(out), p + a + n2, ">", s3, Opened(p + n2, map[k := v], out));
    AppendAssoc("<", n, n2);
    assert Slice(p + n2, 1) == n + n2 by {
      assert ("<" + (n + n2))[1..] == n + n2;
    }
  }

  /** An `=` with no name before it is skipped: `<n =k>` records `k` as a
      bare attribute. */
  lemma EqualsWithoutName(out: seq<Block>, n: string, k: string)
    requires IsTagName(n) && n != "!--" && IsAttrName(k)
    ensures Run(Clean(out), "<" + n + " =" + k + ">") == Ok(InBlock(n, map[k := k], "", 1, out))
  {
    var p := "<" + n;
    assert "<" + n + " =" + k + ">" == "<" + n + ([' '] + (['='] + (k + ">")));
    TagStartRun(out, n, [' '] + (['='] + (k + ">")));
    assert p[1..] == n && "<!--"[1..] == "!--";
    var s1 := InTag(p, map[], Some(AttrScan("", "")), out);
    StepSpace(p, map[], None, out, ' ');
    Chain(InTag(p, map[], None, out), ' ', ['='] + (k + ">"), s1);
    StepEquals(p, map[], "", out);
    Chain(s1, '=', k + ">", s1);
    AttrNameRun(s1, "", k);
    assert "" + k == k;
    var s2 := InTag(p, map[], Some(AttrScan(k, "")), out);
    RunSeq(s1, k, ">", s2);
    StepNameClose(p, map[], k, out);
    One(s2, '>');
    assert Opened(p, map[k := k], out) == InBlock(n, map[k := k], "", 1, out);
  }
}

=== FILE: roundtrip.dfy ===
/** Writing a well-formed document out and parsing it back yields exactly the
    blocks it denotes. */
module SfcRoundTrip {
  import opened Wrappers
  import opened Chars
  import opened SfcParser
  import opened SfcSyntax
  import opened SfcRuns

  /** Inside an opening tag whose text so far is `p`, between blocks. */
  function InTag(p: string, m: map<string, string>, a: Option<AttrScan>, out: seq<Block>): State
  {
    State(p, NoTag, m, a, "", 0, out)
  }

  /** Just after the `>` of an opening tag whose text was `p`. */
  function Opened(p: string, m: map<string, string>, out: seq<Block>): State
  {
    State("", TagOf(Slice(p, 1)), m, None, "", 1, out)
  }

  /** Before the next attribute: no scan, or an empty name scan. */
  predicate Ready(a: Option<AttrScan>)
  {
    a == None || a == Some(AttrScan("", ""))
  }

  /** Whitespace after a tag name, or between attributes, starts a fresh
      name scan. */
  lemma StepSpace(p: string, m: map<string, string>, a: Option<AttrScan>, out: seq<Block>, w: char)
    requires p != "" && p != "<!--" && Ready(a) && IsWhitespace(w)
    ensures Step(InTag(p, m, a, out), w) == Ok(InTag(p, m, Some(AttrScan("", "")), out))
  {
  }

  /** `>` right after a tag name opens the block. */
  lemma StepTagClose(p: string, m: map<string, string>, out: seq<Block>)
    requires p != ""
    ensures Step(InTag(p, m, None, out), '>') == Ok(Opened(p, m, out))
  {
  }

  /** Whitespace after a bare name records it and starts a fresh scan. */
  lemma StepBareEnd(p: string, m: map<string, string>, k: string, out: seq<Block>, w: char)
    requires p != "" && k != "" && IsWhitespace(w)
    ensures Step(InTag(p, m, Some(AttrScan(k, "")), out), w) == Ok(InTag(p, m[k := k], Some(AttrScan("", "")), out))
  {
  }

  /** `=` after a name switches the scan to the value. */
  lemma StepEquals(p: string, m: map<string, string>, k: string, out: seq<Block>)
    requires p != ""
    ensures Step(InTag(p, m, Some(AttrScan(k, "")), out), '=') == Ok(InTag(p, m, Some(AttrScan("", k)), out))
  {
  }

  /** The first character of a value that is neither whitespace nor `>`
      starts the value. */
  lemma StepValueFirst(p: string, m: map<string, string>, k: string, out: seq<Block>, c: char)
    requires p != "" && k != "" && c != '>' && !IsWhitespace(c)
    ensures Step(InTag(p, m, Some(AttrScan("", k)), out), c) == Ok(InTag(p, m, Some(AttrScan([c], k)), out))
  {
    assert "" + [c] == [c];
  }

  /** `>` while a name is scanned records a nonempty name and opens the
      block. */
  lemma StepNameClose(p: string, m: map<string, string>, k: string, out: seq<Block>)
    requires p != ""
    ensures Step(InTag(p, m, Some(AttrScan(k, "")), out), '>') == Ok(Opened(p, if k == "" then m else m[k := k], out))
  {
  }

  lemma ValidAttrsTail(attrs: seq<Attribute>)
    requires attrs != [] && ValidAttrs(attrs)
    ensures ValidAttr(attrs[0]) && ValidAttrs(attrs[1..])
    ensures attrs[0].Unquoted? ==> |attrs| == 1
  {
    assert ValidAttr(attrs[0]);
    forall i | 0 <= i < |attrs[1..]|
      ensures ValidAttr(attrs[1..][i]) && (attrs[1..][i].Unquoted? ==> i == |attrs[1..]| - 1)
    {
      assert attrs[1..][i] == attrs[i + 1];
    }
  }

  /** ` k` inside an opening tag: the name is read into a fresh scan. */
  lemma SpaceName(p: string, m: map<string, string>, a: Option<AttrScan>, out: seq<Block>, k: string, rest: string)
    requires p != "" && p != "<!--" && Ready(a) && IsAttrName(k)
    ensures Run(InTag(p, m, a, out), " " + k + rest) == Run(InTag(p, m, Some(AttrScan(k, "")), out), rest)
  {
    var s1 := InTag(p, m, Some(AttrScan("", "")), out);
    StepSpace(p, m, a, out, ' ');
    assert " " + k + rest == [' '] + (k + rest);
    Chain(InTag(p, m, a, out), ' ', k + rest, s1);
    AttrNameRun(s1, "", k);
    assert "" + k == k;
    RunSeq(s1, k, rest, InTag(p, m, Some(AttrScan(k, "")), out));
  }

  /** ` k=` followed by the first character `c` of a value. */
  lemma ValueStart(p: string, m: map<string, string>, a: Option<AttrScan>, out: seq<Block>, k: string, c: char, rest: string)
    requires p != "" && p != "<!--" && Ready(a) && IsAttrName(k)
    requires c != '>' && !IsWhitespace(c)
    ensures Run(InTag(p, m, a, out), " " + k + "=" + [c] + rest) == Run(InTag(p, m, Some(AttrScan([c], k)), out), rest)
  {
    var s2 := InTag(p, m, Some(AttrScan(k, "")), out);
    var s3 := InTag(p, m, Some(AttrScan("", k)), out);
    var s4 := InTag(p, m, Some(AttrScan([c], k)), out);
    assert " " + k + "=" + [c] + rest == " " + k + (['='] + ([c] + rest));
    SpaceName(p, m, a, out, k, ['='] + ([c] + rest));
    StepEquals(p, m, k, out);
    Chain(s2, '=', [c] + rest, s3);
    StepValueFirst(p, m, k, out, c);
    Chain(s3, c, rest, s4);
  }

  /** A quoted attribute is recorded without its quotes and ends the scan. */
  lemma QuotedAttrRun(p: string, m: map<string, string>, a: Option<AttrScan>, out: seq<Block>,
                      k: string, q: char, v: string, rest: string)
    requires p != "" && p != "<!--" && Ready(a) && ValidAttr(Quoted(k, q, v))
    ensures Run(InTag(p, m, a, out), RenderAttr(Quoted(k, q, v)) + rest) == Run(InTag(p, m[k := v], None, out), rest)
  {
    assert RenderAttr(Quoted(k, q, v)) + rest == " " + k + "=" + [q] + (v + ([q] + rest));
    ValueStart(p, m, a, out, k, q, v + ([q] + rest));
    var s4 := InTag(p, m, Some(AttrScan([q], k)), out);
    var s5 := InTag(p, m, Some(AttrScan([q] + v, k)), out);
    ValueRun(s4, [q], k, v);
    RunSeq(s4, v, [q] + rest, s5);
    assert ([q] + v)[1..] == v;
    assert ([q] + v)[|[q] + v| - 1] == if v == [] then q else v[|v| - 1];
    assert Step(s5, q) == Ok(InTag(p, m[k := v], None, out));
    Chain(s5, q, rest, InTag(p, m[k := v], None, out));
  }

  /** An unquoted attribute runs to the `>`, which also ends the tag. */
  lemma UnquotedAttrRun(p: string, m: map<string, string>, a: Option<AttrScan>, out: seq<Block>, k: string, v: string)
    requires p != "" && p != "<!--" && Ready(a) && ValidAttr(Unquoted(k, v))
    ensures Run(InTag(p, m, a, out), RenderAttr(Unquoted(k, v)) + ">") == Ok(Opened(p, m[k := v], out))
  {
    assert RenderAttr(Unquoted(k, v)) + ">" == " " + k + "=" + [v[0]] + (v[1..] + ">");
    ValueStart(p, m, a, out, k, v[0], v[1..] + ">");
    var s4 := InTag(p, m, Some(AttrScan([v[0]], k)), out);
    var s5 := InTag(p, m, Some(AttrScan([v[0]] + v[1..], k)), out);
    forall i | 0 <= i < |v[1..]| ensures ValueChar([v[0]][0], v[1..][i]) {
      assert v[1..][i] == v[i + 1];
    }
    ValueRun(s4, [v[0]], k, v[1..]);
    RunSeq(s4, v[1..], ">", s5);
    assert [v[0]] + v[1..] == v;
    assert Step(s5, '>') == Ok(Opened(p, m[k := v], out));
  }

  /** The attributes of an opening tag and its `>`: every attribute is
      recorded in order, then the block opens at depth 1. */
  lemma {:induction false} AttrsRun(p: string, m: map<string, string>, a: Option<AttrScan>, out: seq<Block>,
                                    attrs: seq<Attribute>)
    requires p != "" && (attrs == [] || p != "<!--") && Ready(a) && ValidAttrs(attrs)
    ensures Run(InTag(p, m, a, out), RenderAttrs(attrs) + ">") == Ok(Opened(p, AttrsInto(m, attrs), out))
    decreases |attrs|
  {
    if attrs == [] {
      assert RenderAttrs(attrs) + ">" == ">";
      assert Step(InTag(p, m, a, out), '>') == Ok(Opened(p, m, out));
    } else {
      ValidAttrsTail(attrs);
      var x, rest := attrs[0], attrs[1..];
      var R := RenderAttrs(rest) + ">";
      assert RenderAttrs(attrs) + ">" == RenderAttr(x) + R;
      match x
      case Bare(k) =>
        assert RenderAttr(x) + R == " " + k + R;
        SpaceName(p, m, a, out, k, R);
        var s2 := InTag(p, m, Some(AttrScan(k, "")), out);
        BareThen(p, m, out, k, rest);
        if rest != [] {
          AttrsRun(p, m[k := k], Some(AttrScan("", "")), out, rest);
        }
      case Quoted(k, q, v) =>
        QuotedAttrRun(p, m, a, out, k, q, v, R);
        AttrsRun(p, m[k := v], None, out, rest);
      case Unquoted(k, v) =>
        assert R == ">";
        UnquotedAttrRun(p, m, a, out, k, v);
    }
  }

  /** Any whitespace character after a bare name `k` records `k` and starts
      a fresh name scan, whatever follows. */
  lemma WhitespaceAfterName(p: string, m: map<string, string>, out: seq<Block>, k: string, w: char, tail: string)
    requires p != "" && k != "" && IsWhitespace(w)
    ensures Run(InTag(p, m, Some(AttrScan(k, "")), out), [w] + tail)
            == Run(InTag(p, m[k := k], Some(AttrScan("", "")), out), tail)
  {
    StepBareEnd(p, m, k, out, w);
    Chain(InTag(p, m, Some(AttrScan(k, "")), out), w, tail, InTag(p, m[k := k], Some(AttrScan("", "")), out));
  }

  /** After a bare name `k`, the rest of the attributes start over from a
      fresh scan with `k` recorded, or the tag closes. */
  lemma BareThen(p: string, m: map<string, string>, out: seq<Block>, k: string, rest: seq<Attribute>)
    requires p != "" && p != "<!--" && k != ""
    ensures rest == [] ==>
      Run(InTag(p, m, Some(AttrScan(k, "")), out), RenderAttrs(rest) + ">") == Ok(Opened(p, m[k := k], out))
    ensures rest != [] ==>
      Run(InTag(p, m, Some(AttrScan(k, "")), out), RenderAttrs(rest) + ">")
      == Run(InTag(p, m[k := k], Some(AttrScan("", "")), out), RenderAttrs(rest) + ">")
  {
    var s2 := InTag(p, m, Some(AttrScan(k, "")), out);
    var R := RenderAttrs(rest) + ">";
    if rest == [] {
      assert R == [] + ">";
      StepNameClose(p, m, k, out);
      One(s2, '>');
    } else {
      var s3 := InTag(p, m[k := k], Some(AttrScan("", "")), out);
      var tail := RenderAttrs(rest)[1..] + ">";
      assert RenderAttrs(rest) == RenderAttr(rest[0]) + RenderAttrs(rest[1..]);
      assert R == [' '] + tail;
      StepBareEnd(p, m, k, out, ' ');
      Chain(s2, ' ', tail, s3);
      StepSpace(p, m[k := k], Some(AttrScan("", "")), out, ' ');
      Chain(s3, ' ', tail, s3);
    }
  }

  /** Inside block `n` with `content` read so far, at depth `d`. */
  function InBlock(n: string, m: map<string, string>, content: string, d: int, out: seq<Block>): State
  {
    State("", Name(n), m, None, content, d, out)
  }

  lemma TextPieceRun(n: string, m: map<string, string>, content: string, d: int, out: seq<Block>, t: string, rest: string)
    requires '<' !in t
    ensures Run(InBlock(n, m, content, d, out), t + rest) == Run(InBlock(n, m, content + t, d, out), rest)
  {
    ContentTextRun(InBlock(n, m, content, d, out), n, t);
    RunSeq(InBlock(n, m, content, d, out), t, rest, InBlock(n, m, content + t, d, out));
  }

  lemma TokenPieceRun(n: string, m: map<string, string>, content: string, d: int, out: seq<Block>, i: string, rest: string)
    requires '>' !in i && d + Effect(i, n) >= 1
    ensures Run(InBlock(n, m, content, d, out), "<" + i + ">" + rest)
            == Run(InBlock(n, m, content + ("<" + i + ">"), d + Effect(i, n), out), rest)
  {
    var st := InBlock(n, m, content, d, out);
    ContentToken(st, n, i);
    assert content + "<" + i + ">" == content + ("<" + i + ">");
    RunSeq(st, "<" + i + ">", rest, InBlock(n, m, content + ("<" + i + ">"), d + Effect(i, n), out));
  }

  /** Balanced content is appended verbatim and leaves the depth at 1. */
  lemma {:induction false} PiecesRun(n: string, m: map<string, string>, content: string, d: int, out: seq<Block>,
                                     ps: seq<Piece>)
    requires Balanced(ps, n, d)
    ensures Run(InBlock(n, m, content, d, out), RenderPieces(ps)) == Ok(InBlock(n, m, content + RenderPieces(ps), 1, out))
    decreases |ps|
  {
    if ps == [] {
      assert content + RenderPieces(ps) == content;
    } else {
      var x := RenderPiece(ps[0]);
      var R := RenderPieces(ps[1..]);
      assert RenderPieces(ps) == x + R;
      assert content + x + R == content + (x + R);
      match ps[0]
      case Text(t) =>
        TextPieceRun(n, m, content, d, out, t, R);
        PiecesRun(n, m, content + x, d, out, ps[1..]);
      case Token(i) =>
        TokenPieceRun(n, m, content, d, out, i, R);
        PiecesRun(n, m, content + x, d + Effect(i, n), out, ps[1..]);
    }
  }

  /** The closing `</n>` at depth 1 emits the block. */
  lemma CloseRun(n: string, m: map<string, string>, content: string, out: seq<Block>)
    requires IsTagName(n)
    ensures Run(InBlock(n, m, content, 1, out), Closer(n)) == Ok(Clean(out + [Block(n, content, AttrsField(m))]))
  {
    var inner := "/" + n;
    assert inner[1..] == n;
    assert "/" <= inner;
    assert Effect(inner, n) == -1;
    assert '>' !in inner by {
      assert !IsTagNameChar('>');
      assert forall i :: 0 <= i < |n| ==> inner[i + 1] == n[i];
    }
    ContentToken(InBlock(n, m, content, 1, out), n, inner);
    assert "<" + inner + ">" == "</" + n + ">";
  }

  /** `<n` between blocks: the tag name is collected. */
  lemma TagStartRun(out: seq<Block>, n: string, rest: string)
    requires AllTagNameChars(n)
    ensures Run(Clean(out), "<" + n + rest) == Run(InTag("<" + n, map[], None, out), rest)
  {
    assert "<" + n + rest == ['<'] + (n + rest);
    var s1 := InTag("<", map[], None, out);
    assert Step(Clean(out), '<') == Ok(s1);
    Chain(Clean(out), '<', n + rest, s1);
    TagNameRun(s1, n);
    RunSeq(s1, n, rest, InTag("<" + n, map[], None, out));
  }

  /** `<n` and the attributes up to `>`: the block `n` opens at depth 1
      with the attributes recorded. */
  lemma OpenTagRun(out: seq<Block>, n: string, attrs: seq<Attribute>, rest: string)
    requires IsTagName(n) && (attrs == [] || n != "!--") && ValidAttrs(attrs)
    ensures Run(Clean(out), "<" + n + RenderAttrs(attrs) + ">" + rest)
            == Run(InBlock(n, AttrsInto(map[], attrs), "", 1, out), rest)
  {
    var m := AttrsInto(map[], attrs);
    var A := RenderAttrs(attrs) + ">";
    assert "<" + n + RenderAttrs(attrs) + ">" + rest == "<" + n + (A + rest);
    TagStartRun(out, n, A + rest);
    assert ("<" + n)[1..] == n;
    assert attrs == [] || "<" + n != "<!--";
    AttrsRun("<" + n, map[], None, out, attrs);
    RunSeq(InTag("<" + n, map[], None, out), A, rest, Opened("<" + n, m, out));
    assert Opened("<" + n, m, out) == InBlock(n, m, "", 1, out);
  }

  /** A valid element parses to the block it denotes, from between blocks
      back to between blocks. */
  lemma ElementRun(out: seq<Block>, n: string, attrs: seq<Attribute>, body: seq<Piece>)
    requires ValidItem(Element(n, attrs, body))
    ensures Run(Clean(out), RenderItem(Element(n, attrs, body))) == Ok(Clean(out + [BlockOf(n, attrs, body)]))
  {
    var m := AttrsInto(map[], attrs);
    var B := RenderPieces(body);
    var open := "<" + n + RenderAttrs(attrs) + ">";
    OpenTagRun(out, n, attrs, "");
    assert open + "" == open;
    PiecesRun(n, m, "", 1, out, body);
    assert "" + B == B;
    Then(Clean(out), open, B, InBlock(n, m, "", 1, out), InBlock(n, m, B, 1, out));
    CloseRun(n, m, B, out);
    Then(Clean(out), open + B, Closer(n), InBlock(n, m, B, 1, out), Clean(out + [BlockOf(n, attrs, body)]));
  }

  /** Whitespace right after `<!--` opens a comment. */
  lemma StepComment(out: seq<Block>, w: char)
    requires IsWhitespace(w)
    ensures Step(InTag("<!--", map[], None, out), w) == Ok(InComment(out, 0))
  {
    assert Dashes(0) == "";
  }

  /** `<!--` and one whitespace character open a comment. */
  lemma CommentOpenRun(out: seq<Block>, w: char, rest: string)
    requires IsWhitespace(w)
    ensures Run(Clean(out), "<!--" + ([w] + rest)) == Run(InComment(out, 0), rest)
  {
    assert "<!--" + ([w] + rest) == ['<'] + ("!--" + ([w] + rest));
    var s1 := InTag("<", map[], None, out);
    assert Step(Clean(out), '<') == Ok(s1);
    Chain(Clean(out), '<', "!--" + ([w] + rest), s1);
    assert AllTagNameChars("!--");
    TagNameRun(s1, "!--");
    assert "<" + "!--" == "<!--";
    RunSeq(s1, "!--", [w] + rest, InTag("<!--", map[], None, out));
    StepComment(out, w);
    Chain(InTag("<!--", map[], None, out), w, rest, InComment(out, 0));
  }

  /** `-->` closes a comment that has no dashes pending. */
  lemma CommentCloseRun(out: seq<Block>)
    ensures Run(InComment(out, 0), "-->") == Ok(Clean(out))
  {
    assert Dashes(1) == "-" && Dashes(2) == "--";
    assert Dashes(0) + ['-'] == Dashes(1) && Dashes(1) + ['-'] == Dashes(2);
    assert Step(InComment(out, 0), '-') == Ok(InComment(out, 1));
    assert Step(InComment(out, 1), '-') == Ok(InComment(out, 2));
    assert Step(InComment(out, 2), '>') == Ok(Clean(out));
    assert "-->" == ['-'] + (['-'] + (['>'] + []));
    Chain(InComment(out, 0), '-', ['-'] + (['>'] + []), InComment(out, 1));
    Chain(InComment(out, 1), '-', ['>'] + [], InComment(out, 2));
    Chain(InComment(out, 2), '>', [], Clean(out));
  }

  /** A comment between blocks is read and forgotten: the state before it
      is the state after it. */
  lemma CommentRun(out: seq<Block>, w: char, b: string)
    requires ValidItem(Remark(w, b))
    ensures Run(Clean(out), RenderItem(Remark(w, b))) == Ok(Clean(out))
  {
    var rest := b + "-->";
    assert RenderItem(Remark(w, b)) == "<!--" + ([w] + rest);
    CommentOpenRun(out, w, rest);
    CommentPrefix(out, b, |b|);
    assert b[..|b|] == b;
    RunSeq(InComment(out, 0), b, "-->", InComment(out, 0));
    CommentCloseRun(out);
  }

  lemma ItemRun(out: seq<Block>, it: Item)
    requires ValidItem(it)
    ensures Run(Clean(out), RenderItem(it)) == Ok(Clean(out + ItemBlocks(it)))
  {

    match it
    case Space(c) =>
      assert out + ItemBlocks(it) == out;
      assert Step(Clean(out), c) == Ok(Clean(out));
    case Remark(w, b) =>
      assert out + ItemBlocks(it) == out;
      CommentRun(out, w, b);
    case Element(n, attrs, body) =>
      ElementRun(out, n, attrs, body);
  }

  lemma AppendAssoc<T>(a: seq<T>, b: seq<T>, c: seq<T>)
    ensures (a + b) + c == a + (b + c)
  {
  }

  lemma ValidDocTail(doc: seq<Item>)
    requires doc != [] && ValidDoc(doc)
    ensures ValidItem(doc[0]) && ValidDoc(doc[1..])
  {
    forall i | 0 <= i < |doc[1..]| ensures ValidItem(doc[1..][i]) {
      assert doc[1..][i] == doc[i + 1];
    }
  }

  lemma {:induction false} DocRun(out: seq<Block>, doc: seq<Item>)
    requires ValidDoc(doc)
    ensures Run(Clean(out), Render(doc)) == Ok(Clean(out + Blocks(doc)))
    decreases |doc|
  {
    if doc == [] {
      assert out + [] == out;
    } else {
      ValidDocTail(doc);
      var a, b := RenderItem(doc[0]), Render(doc[1..]);
      var x, y := ItemBlocks(doc[0]), Blocks(doc[1..]);
      var out' := out + x;
      ItemRun(out, doc[0]);
      DocRun(out', doc[1..]);
      RunSeq(Clean(out), a, b, Clean(out'));
      AppendAssoc(out, x, y);
      assert Render(doc) == a + b;
    }
  }

  /** Round trip: a well-formed document parses to exactly its blocks, in
      document order, with verbatim content and the recorded attributes. */
  lemma ParseRender(doc: seq<Item>)
    requires ValidDoc(doc)
    ensures Parse(Render(doc)) == Ok(Blocks(doc))
  {
    DocRun([], doc);
    assert [] + Blocks(doc) == Blocks(doc);
  }

  /** Whitespace and comments alone parse to no blocks at all. */
  lemma {:induction false} TriviaOnly(doc: seq<Item>)
    requires ValidDoc(doc)
    requires forall i :: 0 <= i < |doc| ==> !doc[i].Element?
    ensures Parse(Render(doc)) == Ok([])
  {
    ParseRender(doc);
    NoElementsNoBlocks(doc);
  }

  lemma {:induction false} NoElementsNoBlocks(doc: seq<Item>)
    requires forall i :: 0 <= i < |doc| ==> !doc[i].Element?
    ensures Blocks(doc) == []
    decreases |doc|
  {
    if doc != [] {
      assert !doc[0].Element?;
      assert forall i :: 0 <= i < |doc[1..]| ==> doc[1..][i] == doc[i + 1];
      NoElementsNoBlocks(doc[1..]);
    }
  }
}

=== FILE: runs.dfy ===
/** Facts about running the scanner over stretches of input: how runs
    compose, and what each scanning mode does to a run of ordinary
    characters. */
module SfcRuns {
  import opened Wrappers
  import opened Chars
  import opened SfcParser
  import opened SfcSyntax

  /** Scanning `a + b` is scanning `a`, then `b` from where `a` left off; an
      error in `a` is the error of the whole. */
  lemma {:induction false} RunAppend(st: State, a: string, b: string)
    ensures Run(st, a).Err? ==> Run(st, a + b) == Run(st, a)
    ensures Run(st, a).Ok? ==> Run(st, a + b) == Run(Run(st, a).value, b)
    decreases |a|
  {
    if a == [] {
      assert a + b == b;
    } else {
      assert (a + b)[0] == a[0];
      assert (a + b)[1..] == a[1..] + b;
      match Step(st, a[0])
      case Err(_) =>
      case Ok(next) => RunAppend(next, a[1..], b);
    }
  }

  lemma RunSeq(st: State, a: string, b: string, mid: State)
    requires Run(st, a) == Ok(mid)
    ensures Run(st, a + b) == Run(mid, b)
  {
    RunAppend(st, a, b);
  }

  /** Two successful runs in a row make one. */
  lemma Then(st: State, a: string, b: string, mid: State, fin: State)
    requires Run(st, a) == Ok(mid) && Run(mid, b) == Ok(fin)
    ensures Run(st, a + b) == Ok(fin)
  {
    RunAppend(st, a, b);
  }

  /** A failure after a successful run is the failure of the whole. */
  lemma ThenFail(st: State, a: string, b: string, mid: State, e: ParseError)
    requires Run(st, a) == Ok(mid) && Run(mid, b) == Err(e)
    ensures Run(st, a + b) == Err(e)
  {
    RunAppend(st, a, b);
  }

  /** A run over one character is one step. */
  lemma One(st: State, c: char)
    ensures Run(st, [c]) == Step(st, c)
  {
    assert [c][0] == c && [c][1..] == [];
  }

  lemma Chain(st: State, c: char, rest: string, next: State)
    requires Step(st, c) == Ok(next)
    ensures Run(st, [c] + rest) == Run(next, rest)
  {
    assert ([c] + rest)[0] == c;
    assert ([c] + rest)[1..] == rest;
  }

  /** Tag-name characters after `<` are collected into `partial`. */
  lemma {:induction false} TagNameRun(st: State, n: string)
    requires st.tag == NoTag && st.attr.None? && st.partial != "" && AllTagNameChars(n)
    ensures Run(st, n) == Ok(st.(partial := st.partial + n))
    decreases |n|
  {
    if n == [] {
      assert st.partial + n == st.partial;
    } else {
      var next := st.(partial := st.partial + [n[0]]);
      assert Step(st, n[0]) == Ok(next);
      TagNameRun(next, n[1..]);
      assert next.partial + n[1..] == st.partial + n;
    }
  }

  /** Attribute-name characters are collected into the scan's `p`. */
  lemma {:induction false} AttrNameRun(st: State, p: string, k: string)
    requires st.tag == NoTag && st.partial != "" && st.attr == Some(AttrScan(p, "")) && AllNameChars(k)
    ensures Run(st, k) == Ok(st.(attr := Some(AttrScan(p + k, ""))))
    decreases |k|
  {
    if k == [] {
      assert p + k == p;
    } else {
      var next := st.(attr := Some(AttrScan(p + [k[0]], "")));
      assert Step(st, k[0]) == Ok(next);
      AttrNameRun(next, p + [k[0]], k[1..]);
      assert p + [k[0]] + k[1..] == p + k;
    }
  }

  /** A character that continues a value begun with `p0`: not `>`, and not
      the quote that opened it. */
  predicate ValueChar(p0: char, c: char)
  {
    c != '>' && !(IsQuote(p0) && c == p0)
  }

  /** Value characters are collected into the scan's `p`, quoted or not. */
  lemma {:induction false} ValueRun(st: State, p: string, k: string, v: string)
    requires st.tag == NoTag && st.partial != "" && st.attr == Some(AttrScan(p, k))
    requires k != "" && p != ""
    requires forall i :: 0 <= i < |v| ==> ValueChar(p[0], v[i])
    ensures Run(st, v) == Ok(st.(attr := Some(AttrScan(p + v, k))))
    decreases |v|
  {
    if v == [] {
      assert p + v == p;
    } else {
      var next := st.(attr := Some(AttrScan(p + [v[0]], k)));
      assert ValueChar(p[0], v[0]);
      assert Step(st, v[0]) == Ok(next);
      assert (p + [v[0]])[0] == p[0];
      ValueRun(next, p + [v[0]], k, v[1..]);
      assert p + [v[0]] + v[1..] == p + v;
    }
  }

  /** Block text without `<` goes straight into the content. */
  lemma {:induction false} ContentTextRun(st: State, t: string, x: string)
    requires st.tag == Name(t) && st.partial == "" && '<' !in x
    ensures Run(st, x) == Ok(st.(content := st.content + x))
    decreases |x|
  {
    if x == [] {
      assert st.content + x == st.content;
    } else {
      var next := st.(content := st.content + [x[0]]);
      assert Step(st, x[0]) == Ok(next);
      ContentTextRun(next, t, x[1..]);
      assert st.content + [x[0]] + x[1..] == st.content + x;
    }
  }

  /** Inside a block, a token being read collects everything up to `>`. */
  lemma {:induction false} TokenTextRun(st: State, t: string, x: string)
    requires st.tag == Name(t) && st.partial != "" && '>' !in x
    ensures Run(st, x) == Ok(st.(partial := st.partial + x))
    decreases |x|
  {
    if x == [] {
      assert st.partial + x == st.partial;
    } else {
      var next := st.(partial := st.partial + [x[0]]);
      assert Step(st, x[0]) == Ok(next);
      TokenTextRun(next, t, x[1..]);
      assert st.partial + [x[0]] + x[1..] == st.partial + x;
    }
  }

  /** The `>` that ends a token `<inner>` read inside block `t`. */
  lemma TokenEnd(st: State, t: string, inner: string)
    requires st.tag == Name(t) && st.partial == "" && st.attr.None?
    ensures Effect(inner, t) == -1 && st.depth == 1 ==>
              ContentStep(st.(partial := "<" + inner), t, '>') == Clean(st.out + [Block(t, st.content, AttrsField(st.attrs))])
    ensures !(Effect(inner, t) == -1 && st.depth == 1) ==>
              ContentStep(st.(partial := "<" + inner), t, '>')
              == st.(content := st.content + "<" + inner + ">", depth := st.depth + Effect(inner, t))
  {
    var p := "<" + inner;
    assert Slice(p, 1) == inner;
    assert ("</" <= p) == ("/" <= inner);
    if "/" <= inner {
      assert Slice(p, 2) == inner[1..];
    }
    assert st.content + "<" + inner + ">" == st.content + p + ['>'];
  }

  /** One token `<inner>` inside block `t`. The exact closer `</t>` at depth
      1 emits the block and resets every per-block field; any other token is
      kept verbatim in the content and moves the depth by `Effect`: down for
      `</t>`, up for a token whose first word is `t`, not at all otherwise. */
  lemma ContentToken(st: State, t: string, inner: string)
    requires st.tag == Name(t) && st.partial == "" && st.attr.None? && '>' !in inner
    ensures Effect(inner, t) == -1 && st.depth == 1 ==>
              Run(st, "<" + inner + ">") == Ok(Clean(st.out + [Block(t, st.content, AttrsField(st.attrs))]))
    ensures !(Effect(inner, t) == -1 && st.depth == 1) ==>
              Run(st, "<" + inner + ">")
              == Ok(st.(content := st.content + "<" + inner + ">", depth := st.depth + Effect(inner, t)))
  {
    var s2 := st.(partial := "<" + inner);
    TokenOpen(st, t, inner);
    One(s2, '>');
    TokenEnd(st, t, inner);
    RunAppend(st, "<" + inner, ">");
  }

  /** `<inner` inside block `t`, before its `>`, is held in `partial`. */
  lemma TokenOpen(st: State, t: string, inner: string)
    requires st.tag == Name(t) && st.partial == "" && st.attr.None? && '>' !in inner
    ensures Run(st, "<" + inner) == Ok(st.(partial := "<" + inner))
  {
    var s1 := st.(partial := "<");
    assert Step(st, '<') == Ok(s1);
    Chain(st, '<', inner, s1);
    TokenTextRun(s1, t, inner);
  }

  /** The dashes in `partial` while inside a comment. */
  function Dashes(n: nat): string
  {
    seq(n, _ => '-')
  }

  /** The state inside a comment opened between blocks, `n` dashes seen. */
  function InComment(out: seq<Block>, n: nat): State
  {
    State(Dashes(n), Comment, map[], None, "", 1, out)
  }

  /** Inside a comment, `partial` holds exactly the dashes that end the text
      read so far, as long as no `>` met exactly two of them. */
  lemma {:induction false} CommentPrefix(out: seq<Block>, b: string, i: nat)
    requires i <= |b|
    requires forall j :: 0 <= j < i && b[j] == '>' ==> TrailingDashes(b[..j]) != 2
    ensures Run(InComment(out, 0), b[..i]) == Ok(InComment(out, TrailingDashes(b[..i])))
    decreases i
  {
    if i == 0 {
      assert b[..0] == [];
    } else {
      CommentPrefix(out, b, i - 1);
      var n := TrailingDashes(b[..i - 1]);
      var c := b[i - 1];
      assert b[..i] == b[..i - 1] + [c];
      assert b[..i][..i - 1] == b[..i - 1];
      RunSeq(InComment(out, 0), b[..i - 1], [c], InComment(out, n));
      if c == '-' {
        assert Dashes(n) + [c] == Dashes(n + 1);
        assert Step(InComment(out, n), c) == Ok(InComment(out, n + 1));
      } else {
        assert c == '>' ==> n != 2;
        assert Dashes(n) == "--" ==> n == 2;
        assert Dashes(0) == "";
        assert Step(InComment(out, n), c) == Ok(InComment(out, 0));
      }
    }
  }
}

=== FILE: spans.dfy ===
/** Content is verbatim: for ANY input that parses, every block's content is
    the exact text between a `>` and the block's closing `</tag>`. */
module SfcSpans {
  import opened Wrappers
  import opened Chars
  import opened SfcParser

  /** Block `b` is written in `s` at `i`: `s[i-1]` is `>`, its content
      starts at `i`, and `</tag>` follows it immediately. */
  predicate SpanAt(s: string, b: Block, i: int)
  {
    && 1 <= i
    && i + |b.content| + |b.tag| + 3 <= |s|
    && s[i - 1] == '>'
    && s[i..i + |b.content|] == b.content
    && s[i + |b.content|..i + |b.content| + |b.tag| + 3] == "</" + b.tag + ">"
  }

  predicate Occurs(s: string, b: Block)
  {
    exists i :: 1 <= i <= |s| && SpanAt(s, b, i)
  }

  /** What the scan keeps about the text `s` it has read: emitted blocks
      occur in it, and inside a block the content read so far plus the
      pending token are the text since the opening `>`. */
  predicate SpanInv(s: string, st: State)
  {
    && (forall k :: 0 <= k < |st.out| ==> Occurs(s, st.out[k]))
    && (!st.tag.Name? ==> st.content == "")
    && (st.tag.Name? ==>
          && |st.content| + |st.partial| < |s|
          && s[|s| - |st.content| - |st.partial| - 1] == '>'
          && s[|s| - |st.content| - |st.partial|..] == st.content + st.partial)
  }

  lemma OccursExtend(s: string, c: char, b: Block)
    requires Occurs(s, b)
    ensures Occurs(s + [c], b)
  {
    var i :| 1 <= i <= |s| && SpanAt(s, b, i);
    var s' := s + [c];
    assert s'[i..i + |b.content|] == s[i..i + |b.content|];
    assert s'[i + |b.content|..i + |b.content| + |b.tag| + 3] == s[i + |b.content|..i + |b.content| + |b.tag| + 3];
    assert SpanAt(s', b, i);
  }

  lemma OutExtend(s: string, c: char, out: seq<Block>)
    requires forall k :: 0 <= k < |out| ==> Occurs(s, out[k])
    ensures forall k :: 0 <= k < |out| ==> Occurs(s + [c], out[k])
  {
    forall k | 0 <= k < |out| ensures Occurs(s + [c], out[k]) {
      OccursExtend(s, c, out[k]);
    }
  }

  /** Inside a block, a step that does not emit appends `c` to the content
      plus pending token. */
  lemma ContentGrows(s: string, st: State, c: char, next: State)
    requires SpanInv(s, st) && st.tag.Name? && next.tag == st.tag && next.out == st.out
    requires next.content + next.partial == st.content + st.partial + [c]
    ensures SpanInv(s + [c], next)
  {
    OutExtend(s, c, st.out);
    var s' := s + [c];
    var L := |st.content| + |st.partial|;
    assert |next.content| + |next.partial| == L + 1;
    assert s'[|s'| - (L + 1) - 1] == s[|s| - L - 1];
    assert s'[|s'| - (L + 1)..] == s[|s| - L..] + [c];
  }

  /** The `>` that ends a block's opening tag. */
  lemma OpenGrows(s: string, st: State, next: State)
    requires SpanInv(s, st) && !st.tag.Name? && next.out == st.out
    requires next.content == st.content && next.partial == ""
    ensures SpanInv(s + ">", next)
  {
    OutExtend(s, '>', st.out);
    var s' := s + ">";
    assert s'[|s'| - 1] == '>';
    assert s'[|s'|..] == "";
  }

  /** The `>` of the closing `</t>` at depth 1: the new block occurs. */
  lemma EmitGrows(s: string, st: State, t: string)
    requires SpanInv(s, st) && st.tag == Name(t) && st.partial == "</" + t
    ensures SpanInv(s + ">", Emit(st, t))
  {
    OutExtend(s, '>', st.out);
    var s' := s + ">";
    var b := Emit(st, t).out[|st.out|];
    var i := |s| - |st.content| - |st.partial|;
    assert b.content == st.content && b.tag == t;
    assert s'[i..i + |b.content|] == st.content by {
      assert s[i..] == st.content + st.partial;
      assert s'[i..i + |b.content|] == s[i..][..|st.content|];
    }
    assert s'[i + |b.content|..i + |b.content| + |b.tag| + 3] == "</" + t + ">" by {
      assert s[i..] == st.content + st.partial;
      assert s'[i + |b.content|..] == st.partial + ">";
    }
    assert SpanAt(s', b, i);
    assert Emit(st, t).out == st.out + [b];
  }

  lemma ContentStepSpans(s: string, st: State, t: string, c: char)
    requires SpanInv(s, st) && st.tag == Name(t)
    ensures SpanInv(s + [c], ContentStep(st, t, c))
  {
    var next := ContentStep(st, t, c);
    if st.partial != "" && c == '>' && "</" <= st.partial && Slice(st.partial, 2) == t && st.depth - 1 == 0 {
      assert st.partial == "</" + t;
      assert [c] == ">";
      EmitGrows(s, st, t);
    } else {
      if st.partial != "" && c == '>' {
        assert next.content + next.partial == st.content + st.partial + [c];
      } else if st.partial != "" {
        assert next.content + next.partial == st.content + st.partial + [c];
      } else {
        assert next.content + next.partial == st.content + st.partial + [c];
      }
      ContentGrows(s, st, c, next);
    }
  }

  lemma StepSpans(s: string, st: State, c: char)
    requires SpanInv(s, st)
    ensures Step(st, c).Ok? ==> SpanInv(s + [c], Step(st, c).value)
  {
    match st.tag
    case Name(t) =>
      ContentStepSpans(s, st, t, c);
    case Comment =>
      assert Step(st, c).value.content == "" && Step(st, c).value.out == st.out;
      OutExtend(s, c, st.out);
    case NoTag =>
      if Step(st, c).Ok? {
        var next := Step(st, c).value;
        assert next.content == "" && next.out == st.out;
        if next.tag.Name? {
          assert c == '>' && next.partial == "";
          assert [c] == ">";
          OpenGrows(s, st, next);
        } else {
          OutExtend(s, c, st.out);
        }
      }
  }

  lemma {:induction false} RunSpans(s: string, st: State, x: string)
    requires SpanInv(s, st)
    ensures Run(st, x).Ok? ==> SpanInv(s + x, Run(st, x).value)
    decreases |x|
  {
    if x != [] {
      StepSpans(s, st, x[0]);
      if Step(st, x[0]).Ok? {
        RunSpans(s + [x[0]], Step(st, x[0]).value, x[1..]);
        assert s + [x[0]] + x[1..] == s + x;
      }
    } else {
      assert s + x == s;
    }
  }

  /** For every input that parses, each block's content is the exact text
      that follows some `>` and is followed by `</tag>`: nothing is
      dropped, rewritten or invented. */
  lemma ContentVerbatim(s: string)
    ensures Parse(s).Ok? ==> forall k :: 0 <= k < |Parse(s).value| ==> Occurs(s, Parse(s).value[k])
  {
    RunSpans("", Init, s);
    assert "" + s == s;
  }
}

=== FILE: syntax.dfy ===
/** A grammar of well-formed component files: the documents the parser is
    meant to accept, how they are written out, and the blocks each one
    denotes. */
module SfcSyntax {
  import opened Wrappers
  import opened Chars
  import opened SfcParser

  /** An attribute on an opening tag, written after one space. */
  datatype Attribute =
    | Bare(name: string)                                // `name`
    | Quoted(name: string, quote: char, value: string)  // `name="value"` or `name='value'`
    | Unquoted(name: string, value: string)             // `name=value`, runs up to `>`

  /** A piece of block content: text without `<`, or a `<...>` token. */
  datatype Piece = Text(text: string) | Token(inner: string)

  /** A top-level item: whitespace, a comment `<!--` + `lead` + `text` + `-->`,
      or a block. */
  datatype Item =
    | Space(c: char)
    | Remark(lead: char, text: string)
    | Element(name: string, attributes: seq<Attribute>, body: seq<Piece>)

  function RenderAttr(a: Attribute): string
  {
    match a
    case Bare(k) => " " + k
    case Quoted(k, q, v) => " " + k + "=" + [q] + v + [q]
    case Unquoted(k, v) => " " + k + "=" + v
  }

  function RenderAttrs(attrs: seq<Attribute>): string
  {
    if attrs == [] then "" else RenderAttr(attrs[0]) + RenderAttrs(attrs[1..])
  }

  function RenderPiece(p: Piece): string
  {
    match p
    case Text(t) => t
    case Token(i) => "<" + i + ">"
  }

  function RenderPieces(ps: seq<Piece>): string
  {
    if ps == [] then "" else RenderPiece(ps[0]) + RenderPieces(ps[1..])
  }

  /** The closing tag of block `n`. */
  function Closer(n: string): string
  {
    "</" + n + ">"
  }

  function RenderItem(it: Item): string
  {
    match it
    case Space(c) => [c]
    case Remark(w, b) => "<!--" + [w] + b + "-->"
    case Element(n, attrs, body) => "<" + n + RenderAttrs(attrs) + ">" + RenderPieces(body) + Closer(n)
  }

  function Render(doc: seq<Item>): string
  {
    if doc == [] then "" else RenderItem(doc[0]) + Render(doc[1..])
  }

  /** The number of dashes that end `s`. */
  function TrailingDashes(s: string): nat
  {
    if s == [] || s[|s| - 1] != '-' then 0 else 1 + TrailingDashes(s[..|s| - 1])
  }

  /** A comment body: no `>` in it follows a run of exactly two dashes, and
      it does not end in a dash, so the `-->` written after it is the first
      one that closes the comment. A nested `<!--` is ordinary text. */
  predicate CommentBody(b: string)
  {
    && TrailingDashes(b) == 0
    && forall i :: 0 <= i < |b| && b[i] == '>' ==> TrailingDashes(b[..i]) != 2
  }

  predicate IsQuote(c: char)
  {
    c == '"' || c == '\''
  }

  /** A tag name the scanner can open a block with: one or more
      `[A-Za-z0-9!-]` characters. */
  predicate IsTagName(n: string)
  {
    n != "" && AllTagNameChars(n)
  }

  predicate IsAttrName(k: string)
  {
    k != "" && AllNameChars(k)
  }

  predicate ValidAttr(a: Attribute)
  {
    match a
    case Bare(k) => IsAttrName(k)
    case Quoted(k, q, v) =>
      && IsAttrName(k) && IsQuote(q) && q !in v && '>' !in v
      && (v == [] || v[|v| - 1] != '\\')
    case Unquoted(k, v) =>
      && IsAttrName(k) && v != [] && !IsWhitespace(v[0]) && !IsQuote(v[0]) && '>' !in v
  }

  /** Valid attributes; an unquoted value reaches the `>`, so it comes last. */
  predicate ValidAttrs(attrs: seq<Attribute>)
  {
    forall i :: 0 <= i < |attrs| ==> ValidAttr(attrs[i]) && (attrs[i].Unquoted? ==> i == |attrs| - 1)
  }

  /** How a token `<inner>` inside block `name` moves the depth: `</name>`
      closes one level, a token whose first word is `name` opens one, and
      every other token is opaque. */
  function Effect(inner: string, name: string): int
  {
    if "/" <= inner && inner[1..] == name then -1
    else if FirstWord(inner) == name then 1
    else 0
  }

  /** The content of a block `name`, entered at depth `d`: no level closes
      before the end, and the content ends back at depth 1, so the next
      `</name>` ends the block. */
  predicate Balanced(ps: seq<Piece>, name: string, d: int)
    decreases |ps|
  {
    if ps == [] then d == 1
    else match ps[0]
      case Text(t) => '<' !in t && Balanced(ps[1..], name, d)
      case Token(i) =>
        && '>' !in i
        && d + Effect(i, name) >= 1
        && Balanced(ps[1..], name, d + Effect(i, name))
  }

  predicate ValidItem(it: Item)
  {
    match it
    case Space(c) => IsWhitespace(c)
    case Remark(w, b) => IsWhitespace(w) && CommentBody(b)
    case Element(n, attrs, body) =>
      && IsTagName(n)
      && (attrs == [] || n != "!--")
      && ValidAttrs(attrs)
      && Balanced(body, n, 1)
  }

  predicate ValidDoc(doc: seq<Item>)
  {
    forall i :: 0 <= i < |doc| ==> ValidItem(doc[i])
  }

  function AttrKey(a: Attribute): string
  {
    a.name
  }

  /** The recorded value: a bare name stands for itself, a quoted value
      loses its quotes. */
  function AttrValue(a: Attribute): string
  {
    match a
    case Bare(k) => k
    case Quoted(_, _, v) => v
    case Unquoted(_, v) => v
  }

  /** The attribute map after recording `attrs` in order into `m`. */
  function AttrsInto(m: map<string, string>, attrs: seq<Attribute>): map<string, string>
    decreases |attrs|
  {
    if attrs == [] then m else AttrsInto(m[AttrKey(attrs[0]) := AttrValue(attrs[0])], attrs[1..])
  }

  function AttrsField(m: map<string, string>): Option<map<string, string>>
  {
    if m == map[] then None else Some(m)
  }

  /** The block a valid element denotes. */
  function BlockOf(n: string, attrs: seq<Attribute>, body: seq<Piece>): Block
  {
    Block(n, RenderPieces(body), AttrsField(AttrsInto(map[], attrs)))
  }

  /** The blocks one item denotes: an element its block, whitespace and
      comments none. */
  function ItemBlocks(it: Item): seq<Block>
  {
    match it
    case Element(n, attrs, body) => [BlockOf(n, attrs, body)]
    case _ => []
  }

  /** The blocks of a document, in document order. */
  function Blocks(doc: seq<Item>): seq<Block>
  {
    if doc == [] then [] else ItemBlocks(doc[0]) + Blocks(doc[1..])
  }

  /** The recorded map holds exactly the names already there and the names
      written. */
  lemma {:induction false} AttrsIntoKeys(m: map<string, string>, attrs: seq<Attribute>, k: string)
    ensures k in AttrsInto(m, attrs) <==> k in m || exists i :: 0 <= i < |attrs| && AttrKey(attrs[i]) == k
    decreases |attrs|
  {
    if attrs != [] {
      var m' := m[AttrKey(attrs[0]) := AttrValue(attrs[0])];
      AttrsIntoKeys(m', attrs[1..], k);
      if exists i :: 0 <= i < |attrs| && AttrKey(attrs[i]) == k {
        var i :| 0 <= i < |attrs| && AttrKey(attrs[i]) == k;
        if i > 0 {
          assert attrs[1..][i - 1] == attrs[i];
        }
      }
    }
  }

  /** A name written more than once maps to the value of its last
      occurrence. */
  lemma {:induction false} AttrsIntoLastWins(m: map<string, string>, attrs: seq<Attribute>, i: nat)
    requires i < |attrs|
    requires forall j :: i < j < |attrs| ==> AttrKey(attrs[j]) != AttrKey(attrs[i])
    ensures AttrKey(attrs[i]) in AttrsInto(m, attrs)
    ensures AttrsInto(m, attrs)[AttrKey(attrs[i])] == AttrValue(attrs[i])
    decreases |attrs|
  {
    var k := AttrKey(attrs[i]);
    var m' := m[AttrKey(attrs[0]) := AttrValue(attrs[0])];
    if i > 0 {
      assert attrs[1..][i - 1] == attrs[i];
      forall j | i - 1 < j < |attrs[1..]| ensures AttrKey(attrs[1..][j]) != k {
        assert attrs[1..][j] == attrs[j + 1];
      }
      AttrsIntoLastWins(m', attrs[1..], i - 1);
    } else {
      forall j | 0 <= j < |attrs[1..]| ensures AttrKey(attrs[1..][j]) != k {
        assert attrs[1..][j] == attrs[j + 1];
      }
      AttrsIntoUntouched(m', attrs[1..], k);
    }
  }

  /** A name not written keeps the value it had. */
  lemma {:induction false} AttrsIntoUntouched(m: map<string, string>, attrs: seq<Attribute>, k: string)
    requires k in m
    requires forall j :: 0 <= j < |attrs| ==> AttrKey(attrs[j]) != k
    ensures k in AttrsInto(m, attrs) && AttrsInto(m, attrs)[k] == m[k]
    decreases |attrs|
  {
    if attrs != [] {
      var m' := m[AttrKey(attrs[0]) := AttrValue(attrs[0])];
      forall j | 0 <= j < |attrs[1..]| ensures AttrKey(attrs[1..][j]) != k {
        assert attrs[1..][j] == attrs[j + 1];
      }
      AttrsIntoUntouched(m', attrs[1..], k);
    }
  }
}

=== FILE: wrappers.dfy ===
/** Option and Result datatypes used by the parser model. */
module Wrappers {

  /** An optional value; the parser uses it for the attribute being scanned
      and for a block's attribute map, which is present only when non-empty. */
  datatype Option<+T> = None | Some(value: T)

  /** The outcome of a computation that may fail with an error of type `E`. */
  datatype Result<+T, +E> = Ok(value: T) | Err(error: E)
}
